=== FILE: README.md ===
# FracAtlas dataset partitioner, modelled in Dafny

`prepare_fracatlas.py` turns the FracAtlas X-ray corpus into the layout the
YOLO trainer expects. `prepare_fracatlas_dataset` works in six steps:

- it returns at once when the source folder is missing;
- it creates `images/<split>` and `labels/<split>` for the splits train, val and test;
- it collects the `.jpg` files of `images/Fractured` and `images/Non_fractured`;
- it shuffles them and cuts the list at `int(total * train_ratio)` and `int(total * val_ratio)`;
- the nested `copy_files` copies every image with its YOLO label into its split; for an image without an annotation it calls `touch()` on the label path, which creates an empty label but keeps a label file that is already there;
- finally `data.yaml` is written.

`verify_dataset` counts the images and labels of each split and reports
whether the manifest exists.

The model works on an abstract filesystem: a map from paths to file
contents plus a set of directories. The parts are:

- `Fs` (module `FileSystem`) is that filesystem. `Mkdirs`, `Copy2`, `Touch`,
  `WriteFile` and `Glob` are what `mkdir(parents=True, exist_ok=True)`,
  `shutil.copy2`, `Path.touch`, `open(..., 'w')` and `Path.glob('*.ext')` do to
  it. Each failure is an `FsError`.
- Paths are sequences of components. A relative path argument is resolved
  against a working-directory parameter.
- `Partitioner.Prepare` is the whole run. Its `Outcome` is the final
  filesystem with either the return value or the exception that escaped.
  An exception keeps whatever the earlier steps wrote.
- `Shuffling.Shuffle` is CPython's `random.shuffle` (Fisher–Yates from the
  top position down). Its random draws are a parameter.
- `Slicing.SplitList` models Python's `int()` truncation and slice clamping
  exactly, so negative and oversized ratios behave as in Python.
- `DatasetManifest.Manifest` holds the content of `data.yaml`.
- `Partitioner.VerifyDataset` is `verify_dataset`, with its printed counts and
  warnings returned as a `Report`.

Four behaviours of the code are worth stating, because a reader might expect
otherwise:

- Ratios are never validated. No error is raised for negative ratios or for
  ratios that do not sum to 1. Negative ratios make train and test overlap
  (`Slicing.NegativeRatioOverlaps`). Oversized ratios are clamped
  (`Slicing.OverfullRatiosAccepted`).
- A missing source folder raises no error. The function prints a message
  and returns `None` (`PrepareProofs.MissingSourceReturnsEarly`).
- `test_ratio` is only printed. Test receives whatever train and val leave
  (`PrepareProofs.TestRatioIgnored`).
- The output directories are created before the images are collected.

## Model

| member | source | states |
|---|---|---|
| FileSystem.Mkdirs | prepare_fracatlas.py:46-47 | creating a directory with its parents succeeds exactly when no prefix of the path is a file; on success it adds the path and its ancestors and leaves every file alone |
| FileSystem.Copy2 | prepare_fracatlas.py:87 | a copy succeeds only from a regular file and never changes the directories; copying a regular file to a different path that is not a directory and whose parent directory exists always succeeds and gives that path the source's content |
| FileSystem.WriteFile | prepare_fracatlas.py:124-126 | writing a file succeeds exactly when the path is not a directory and its parent is one; on success it replaces or creates that one file and nothing else |
| FileSystem.Touch | prepare_fracatlas.py:100 | touching succeeds exactly when the path exists or its parent is a directory; afterwards the path exists, the directories are the same, every file keeps its content, and the only file that can appear is the path itself, empty, when nothing was there |
| Partitioner.MakeLayout | prepare_fracatlas.py:45-47 | the layout keeps all files and directories; when it does not raise, every split has its images and labels directories |
| Partitioner.WriteLabel | prepare_fracatlas.py:93-100 | the label step as its comment intends it: on success the directories stay, the flag is set exactly when the annotation exists, and the label path (when not a directory) ends up holding the annotation or an empty file, whatever was there |
| Partitioner.LabelAsWritten | prepare_fracatlas.py:93-100 | the label step as written: on success the directories stay, the flag is set exactly when the annotation exists, and (when the label path is not a directory) only the label changes: it holds the annotation when there is one, otherwise keeps the label file already there, otherwise is created empty; without an annotation an existing label file leaves the filesystem exactly as it was |
| Partitioner.CopyOne | prepare_fracatlas.py:84-101 | one iteration never changes the directories, adds one to exactly one counter when it finishes, and none when it raises |
| Partitioner.CopyFrom | prepare_fracatlas.py:84-101 | a finished loop counts every image in exactly one of `copied` and `no_label`; a raise leaves the image being copied uncounted; counters never decrease; the directories never change |
| Partitioner.CopyFiles | prepare_fracatlas.py:78-104 | `copied + no_label` equals the number of images when `copy_files` returns, and falls short of it when it raises |
| Partitioner.Materialize | prepare_fracatlas.py:106-109 | the three copies never change the directories |
| Partitioner.Populate | prepare_fracatlas.py:45-126 | everything after the source check keeps every directory, and when nothing raises the manifest at `output/data.yaml` holds the manifest of the output |
| Partitioner.Prepare | prepare_fracatlas.py:13-146 | the run returns `None` exactly when the source is missing, and then leaves the filesystem alone; when it returns a path, that path is `output / 'data.yaml'` and the manifest is there |
| Partitioner.Plan | prepare_fracatlas.py:51-70 | the fractured then non-fractured images, shuffled and cut; its properties are stated by PrepareProofs.PlanPartitions and PrepareProofs.PlanWithin |
| Slicing.SplitList | prepare_fracatlas.py:64-70 | the three slices at `int(total * ratio)`; its properties are stated by Slicing.SplitIsPartition, Slicing.SplitSizes and Slicing.NegativeRatioOverlaps |
| Slicing.Slice | prepare_fracatlas.py:68-70 | Python's slice with clamped bounds; its properties are stated by Slicing.SliceWithin and Slicing.SlicesAtCuts |
| Paths.Stem | prepare_fracatlas.py:90 | pathlib's `stem`; its properties are stated by Paths.StemStrips, Paths.StemNonEmpty, Paths.LabelStemRoundTrip and Paths.HiddenJpgSharesStem |
| Paths.RFind | prepare_fracatlas.py:90 | the last dot of a name: the index holds the dot and no later position does, or -1 when there is none |
| Shuffling.ShuffleDown | prepare_fracatlas.py:61 | the loop of `random.shuffle` from a position down to 1 keeps the length, the multiset and distinctness |
| Slicing.SlicesAtCuts | prepare_fracatlas.py:68-70 | with non-negative sizes the three slices cut the list at the two clamped bounds |
| Partitioner.CheckSplits | prepare_fracatlas.py:156-168 | one check per split, in order; no split's check affects another |
| Partitioner.VerifyDataset | prepare_fracatlas.py:149-175 | the report holds one check per split (train, val, test) counting the `.jpg` and `.txt` globs, warning exactly on a mismatch, and finds the manifest exactly when `data.yaml` exists |
| DatasetManifest.ForOutput | prepare_fracatlas.py:113-122 | the manifest is consistent: its path is the absolute output, each split entry is `images/<split>`, one class named `fracture` |
| Shuffling.Swap | prepare_fracatlas.py:61 | a swap exchanges two positions and nothing else, keeping the multiset and distinctness |
| Shuffling.Shuffle | prepare_fracatlas.py:60-61 | the shuffle is a permutation: same length, same multiset, and distinct elements stay distinct |
| Shuffling.ShuffleKeepsElements | prepare_fracatlas.py:61 | an image is in the shuffled list exactly when it is in the list given |
| Slicing.Trunc | prepare_fracatlas.py:65-66 | `int()` truncates toward zero: for non-negative values it is the floor, for negative ones the ceiling |
| Slicing.Bound | prepare_fracatlas.py:68-70 | a slice bound is clamped into the list, a negative one counted from the end |
| Slicing.SliceWithin | prepare_fracatlas.py:68-70 | a slice holds only elements of the list, and no element twice when the list has none twice |
| Slicing.SplitIsPartition | prepare_fracatlas.py:64-70 | with non-negative ratios, train, val and test laid end to end give the shuffled list back, whatever the ratios' sum |
| Slicing.FloorsFit | prepare_fracatlas.py:64-66 | with non-negative ratios summing to at most 1 the two sizes are the floors of the shares and fit in the list together |
| Slicing.SplitSizes | prepare_fracatlas.py:64-70 | train and val get the floors of `total * ratio` and test gets the rest |
| Slicing.TenImagesSplitSevenTwoOne | prepare_fracatlas.py:16-18 | the defaults 0.7 and 0.2 split ten images as 7, 2 and 1 |
| Slicing.NegativeRatioOverlaps | prepare_fracatlas.py:65-70 | a negative train ratio is accepted: with ten images train is the first seven and test the last eight, so the five images at positions 2 to 6 are in both |
| Slicing.OverfullRatiosAccepted | prepare_fracatlas.py:65-70 | ratios summing to more than 1 are accepted; val is clamped and test is empty |
| Paths.StemStrips | prepare_fracatlas.py:90 | the stem of a non-empty base followed by an extension is the base |
| Paths.LabelStemRoundTrip | prepare_fracatlas.py:90 | a label named `stem + '.txt'` has the image's stem again |
| Paths.HiddenJpgSharesStem | prepare_fracatlas.py:90 | two different `.jpg` names (`.jpg`, `.jpg.jpg`) share one stem, and so one label |
| CopyProofs.CountAnnotated | prepare_fracatlas.py:93-96 | the number of annotated images never exceeds the number of images |
| CopyProofs.CopyOneEffect | prepare_fracatlas.py:84-101 | one iteration, when both split directories exist, the source and output trees are apart, no directory lies more than two levels below the output, the image is a regular file of the source tree and its annotation path is not a directory, writes the image copy and the label, changes nothing else, and bumps `copied` exactly when the annotation exists and `no_label` otherwise; the label becomes the annotation, or keeps an existing label file's content, or is created empty |
| CopyProofs.HeadNotRetouched | prepare_fracatlas.py:86-99 | with unique stems, no later image writes the first image's image or label file |
| CopyProofs.LabelNameSeparatesStems | prepare_fracatlas.py:90 | equal label names come from equal stems |
| CopyProofs.CopyFromEffect | prepare_fracatlas.py:84-101 | the loop raises nothing in a ready state where no label in place is stale, keeps the directories, writes exactly the images' and labels' destinations and leaves every other file as it was, counts the annotated images in `copied` and, with unique stems, each copy holds its source image and each label its annotation or nothing |
| LayoutProofs.LayoutEffect | prepare_fracatlas.py:45-47 | the layout below an output with no file in its way succeeds, keeps every file and adds only directories of the layout |
| PrepareProofs.PlanWithin | prepare_fracatlas.py:51-70 | every split holds only collected images, and unique stems stay unique within a split |
| PrepareProofs.PlanPartitions | prepare_fracatlas.py:54-70 | with non-negative ratios the three splits together hold every collected image exactly as often as the listings |
| PrepareProofs.CopyAgreesOutside | prepare_fracatlas.py:84-101 | copying a split changes no file outside the output directory |
| PrepareProofs.PrepareEffect | prepare_fracatlas.py:34-146 | from a clean start the run returns the manifest path, writes the manifest, changes nothing outside the output, and gives each split directory exactly its images and labels, faithful when stems are unique |
| PrepareProofs.MissingSourceReturnsEarly | prepare_fracatlas.py:38-41 | a missing source ends the run with the filesystem untouched and `None` returned |
| PrepareProofs.TestRatioIgnored | prepare_fracatlas.py:18 | two runs differing only in `test_ratio` have the same outcome |
| VerifyProofs.ChildrenNamedCard | prepare_fracatlas.py:160-161 | distinct names in one directory give as many entries as names |
| VerifyProofs.NamesCard | prepare_fracatlas.py:86-90 | images with unique stems produce as many image names and label names as images |
| VerifyProofs.ImageGlob | prepare_fracatlas.py:160 | after a run, a split's `*.jpg` glob finds exactly its images under their names |
| VerifyProofs.LabelGlob | prepare_fracatlas.py:161 | after a run, a split's `*.txt` glob finds exactly its labels |
| VerifyProofs.SplitCheckClean | prepare_fracatlas.py:156-168 | a materialised split with unique stems counts each image and each label once and does not warn |
| VerifyProofs.VerifyAfterPrepare | prepare_fracatlas.py:149-175 | verifying the output of a clean run with unique stems reports each split's share of the plan for both images and labels, no warning, and the manifest found |
| VerifyProofs.LabelStemsMatchImageStems | prepare_fracatlas.py:84-101 | after a run from a clean start, the label files of a split have exactly the stems of its image files, whether or not stems collide |
| LabelFinding.WriteLabelContent | prepare_fracatlas.py:93-100 | the corrected label step leaves the annotation's content, or an empty label, whatever was there before, and reports whether an annotation was found |
| LabelFinding.AsWrittenAgreesOnCurrentLabel | prepare_fracatlas.py:93-100 | where the label in place is missing or already holds the intended content, `touch` and the corrected step have the same effect |
| LabelFinding.AsWrittenAgreesOnFreshLabel | prepare_fracatlas.py:97-100 | where no label exists yet, `touch` and the corrected step agree |
| LabelFinding.AsWrittenKeepsStaleLabel | prepare_fracatlas.py:97-100 | with no annotation, `touch` leaves an existing label file as it was |
| LabelFinding.StaleLabelSurvives | prepare_fracatlas.py:97-100 | a concrete state where the code as written keeps a stale fracture label that the corrected step empties |

## Left out

- Printing: every `print` call is left out. `verify_dataset`'s output is returned as a `Report` instead.
- Randomness: `random.seed(42)` and the Mersenne Twister are not modelled. The values the generator draws for `random.shuffle` are a parameter restricted to valid ranges, so the same draws always give the same split.
- Glob order: the order in which `glob` lists the class folders depends on the operating system. It is a parameter, required to list the glob's matches once each.
- Floating point: `total * ratio` is computed on exact reals. IEEE rounding can change a size when the floating-point product lands just below an integer that the exact product reaches. Reals also have no NaN or infinity, so the error path is lost: `int()` at lines 65-66 raises `ValueError` for a NaN ratio and `OverflowError` for an infinite one, and `0 * inf` gives NaN when the corpus is empty.
- File metadata: `copy2` copies timestamps and permissions, which are not modelled. Only the content is.
- YAML text: the manifest is stored as a structured value. Its YAML serialisation (`yaml.dump`) is not modelled.
- Absolute path: `str(output.absolute())` is the output path resolved against the working directory. Symlinks and `..` are not normalised.
- Partial `mkdir`: when `mkdir` fails partway, its partially created ancestors are not modelled. The failing call leaves the filesystem as it was.
- Out of scope: `train_fracatlas.py`, the HTTP API and the `__main__` block are not part of this model.
- Default arguments: `Partitioner.Prepare` takes every argument explicitly. The defaults at lines 14-18 (`source_dir="FracAtlas/FracAtlas"`, `output_dir="fracatlas_training/datasets/fracatlas"`, ratios 0.7, 0.2 and 0.1) are not modelled; only `Slicing.TenImagesSplitSevenTwoOne` uses the default ratios.
- Case-insensitive globbing: `glob('*.jpg')` is matched case-sensitively, as on Linux, so `.JPG` files are neither collected nor counted.
- PrepareProofs.PrepareEffect: it is proved only from a clean start, meaning all of the following: the source and output trees do not overlap; the output directory is missing or empty; no file stands where the output directory or one of its ancestors goes; every collected `.jpg` is a regular file; and no annotation path is a directory. A run over a populated output is not described by any whole-run lemma. That includes images and labels left over from an earlier run, for instance after the ratios change. The label finding below covers only the stale-label part of such a run.
- CopyProofs.CopyOneEffect: it is proved only when both split directories exist, the source and output trees do not overlap, no directory lies more than two levels below the output, the image is a regular file of the source tree, and its annotation path is not a directory. An iteration that succeeds outside these conditions is not described: for example, an output nested inside the source tree, or a directory at an image's or label's destination.
- CopyProofs.CopyFromEffect: it is proved only under the conditions listed for CopyProofs.CopyOneEffect, for every image of the list, and only when every label file already in place for the list holds its intended content. A clean start meets this, and each iteration keeps it. Runs that meet a stale label are described by CopyProofs.CopyOneEffect step by step and by the label finding below.

## Findings

| source | as written | input that shows it | evidently intended | confidence | as-written member | corrected member |
|---|---|---|---|---|---|---|
| prepare_fracatlas.py:97-100 | an image without an annotation gets `label_dest.touch()`, which keeps any label file already at that path | output left by an earlier run holds `labels/train/a.txt` with a fracture box; `a.jpg` no longer has an annotation and lands in train again | the comment asks for an empty label ("sem fraturas"), so the label should be truncated to empty | medium, not executed | LabelFinding.StaleLabelSurvives | LabelFinding.WriteLabelContent |

`Partitioner.LabelAsWritten` is the step as written, and `copy_files`
(`Partitioner.CopyOne`) runs it. `Partitioner.WriteLabel` is the corrected
step. `LabelFinding.AsWrittenAgreesOnCurrentLabel` shows that one step of
each has the same effect wherever no label is stale. A clean start has no
stale label, and `CopyProofs.TailReady` shows that each iteration keeps it
so. That is the argument that a run of the corrected step would behave
the same from a clean start. The model defines no such run, so this is not
proved as a lemma.

=== FILE: copy_proofs.dfy ===
/**
 What `copy_files` does to the filesystem: for every image of the list, the
 image and its label appear in the split directories, and nothing else changes.
 */
module CopyProofs {
  import opened Wrappers
  import opened Paths
  import opened DatasetManifest
  import opened FileSystem
  import opened Shuffling
  import opened Partitioner

  /** The names the images of `imgs` are copied under. */
  function ImageNames(imgs: seq<Path>): set<string>
  {
    set img | img in imgs :: Name(img)
  }

  /** The names the labels of `imgs` are written under. */
  function LabelNames(imgs: seq<Path>): set<string>
  {
    set img | img in imgs :: LabelName(img)
  }

  /** `q` is one of the files `copy_files(imgs, split)` writes. */
  ghost predicate Touched(output: Path, split: string, imgs: seq<Path>, q: Path)
  {
    || (IsChild(output + ImagesDir(split), q) && Name(q) in ImageNames(imgs))
    || (IsChild(output + LabelsDir(split), q) && Name(q) in LabelNames(imgs))
  }

  /** No directory lies deeper below `output` than the split directories. */
  ghost predicate NoDeepDirs(fs: Fs, output: Path)
  {
    forall d :: d in fs.dirs && IsPrefix(output, d) ==> |d| <= |output| + 2
  }

  /**
   The state `copy_files(imgs, split)` can run in without raising: the split
   directories exist, source and output trees are apart, nothing sits where a
   copy goes as a directory, every image is a regular file of the source tree
   and no annotation path is a directory.
   */
  ghost predicate CopyPossible(fs: Fs, source: Path, output: Path, split: string, imgs: seq<Path>)
  {
    && IsDir(fs, output + ImagesDir(split))
    && IsDir(fs, output + LabelsDir(split))
    && Disjoint(source, output)
    && NoDeepDirs(fs, output)
    && forall img :: img in imgs ==>
         && IsPrefix(source, img)
         && IsFile(fs, img)
         && AnnotationPath(source, img) !in fs.dirs
  }

  /**
   No label of `imgs` is stale: a label file already in place holds what the
   label step is meant to leave there, the annotation or an empty file.
   */
  ghost predicate LabelsCurrent(fs: Fs, source: Path, output: Path, split: string, imgs: seq<Path>)
  {
    forall img :: img in imgs && LabelDest(output, split, img) in fs.files ==>
      fs.files[LabelDest(output, split, img)] == LabelContent(fs, source, img)
  }

  /** A state `copy_files(imgs, split)` runs in without raising and without meeting a stale label. */
  ghost predicate CopyReady(fs: Fs, source: Path, output: Path, split: string, imgs: seq<Path>)
  {
    CopyPossible(fs, source, output, split, imgs) && LabelsCurrent(fs, source, output, split, imgs)
  }

  /**
   The label the step as written leaves: the annotation when there is one,
   otherwise the label file already there, otherwise an empty file.
   */
  function KeptLabel(fs: Fs, source: Path, output: Path, split: string, img: Path): Content
  {
    var a, l := AnnotationPath(source, img), LabelDest(output, split, img);
    if a in fs.files then fs.files[a] else if l in fs.files then fs.files[l] else Empty
  }

  /** Where the label is not stale, the label kept is the label intended. */
  lemma CurrentLabelKept(fs: Fs, source: Path, output: Path, split: string, img: Path)
    requires LabelDest(output, split, img) in fs.files ==>
      fs.files[LabelDest(output, split, img)] == LabelContent(fs, source, img)
    ensures KeptLabel(fs, source, output, split, img) == LabelContent(fs, source, img)
  {
  }

  /** Two images with one label file share one annotation, and so one intended label. */
  lemma SameLabelSameAnnotation(fs: Fs, source: Path, output: Path, split: string, a: Path, b: Path)
    requires LabelDest(output, split, a) == LabelDest(output, split, b)
    ensures AnnotationPath(source, a) == AnnotationPath(source, b)
    ensures LabelContent(fs, source, a) == LabelContent(fs, source, b)
  {
    var la, lb := LabelDest(output, split, a), LabelDest(output, split, b);
    assert LabelName(a) == la[|la| - 1] == lb[|lb| - 1] == LabelName(b);
  }

  /** Distinct images with distinct stems: no two of them share an image or a label file. */
  ghost predicate UniqueStems(imgs: seq<Path>)
  {
    && Distinct(imgs)
    && forall a, b :: a in imgs && b in imgs && a != b ==> Stem(Name(a)) != Stem(Name(b))
  }

  /** How many images of `imgs` have an annotation in `fs`. */
  function CountAnnotated(fs: Fs, source: Path, imgs: seq<Path>): (n: nat)
    ensures n <= |imgs|
  {
    if |imgs| == 0 then 0
    else (if AnnotationPath(source, imgs[0]) in fs.files then 1 else 0) + CountAnnotated(fs, source, imgs[1..])
  }

  /** Where the copies of an image go, and what they are called. */
  lemma DestShapes(output: Path, split: string, img: Path)
    ensures IsChild(output + ImagesDir(split), ImageDest(output, split, img))
    ensures IsChild(output + LabelsDir(split), LabelDest(output, split, img))
    ensures Name(ImageDest(output, split, img)) == Name(img)
    ensures Name(LabelDest(output, split, img)) == LabelName(img)
    ensures IsPrefix(output, ImageDest(output, split, img)) && IsPrefix(output, LabelDest(output, split, img))
    ensures Parent(ImageDest(output, split, img)) == output + ImagesDir(split)
    ensures Parent(LabelDest(output, split, img)) == output + LabelsDir(split)
  {
    var i, l := ImageDest(output, split, img), LabelDest(output, split, img);
    assert i[..|output|] == output && l[..|output|] == output;
  }

  /** An entry of a directory is that directory followed by its name. */
  lemma ChildByName(d: Path, q: Path)
    requires IsChild(d, q)
    ensures q == d + [Name(q)]
  {
  }

  /** Entries of two split directories that differ in kind or in split are different. */
  lemma SplitDirsApart(output: Path, a: Path, b: Path, q: Path)
    requires |a| == 2 && |b| == 2 && a != b
    requires IsChild(output + a, q)
    ensures !IsChild(output + b, q)
  {
    assert q[..|output|] + [q[|output|], q[|output| + 1]] == q[..|output| + 2];
  }

  /** A file below the source tree is never one `copy_files` writes. */
  lemma SourceNotTouched(source: Path, output: Path, split: string, imgs: seq<Path>, q: Path)
    requires Disjoint(source, output) && IsPrefix(source, q)
    ensures !Touched(output, split, imgs, q)
  {
    if IsChild(output + ImagesDir(split), q) {
      PrefixOfExtension(output, ImagesDir(split), q[..|output| + 2] + [q[|q| - 1]]);
      assert IsPrefix(output, q);
      DisjointTreesApart(source, output, q, q);
    } else if IsChild(output + LabelsDir(split), q) {
      assert IsPrefix(output, q);
      DisjointTreesApart(source, output, q, q);
    }
  }

  /** Annotation paths lie in the source tree. */
  lemma AnnotationInSource(source: Path, img: Path)
    ensures IsPrefix(source, AnnotationPath(source, img))
  {
    assert AnnotationPath(source, img)[..|source|] == source;
  }

  /**
   One iteration of the loop, in a state where it cannot raise: the image is
   copied, and the label becomes the annotation, or stays as it was when there
   is none, or is created empty when there is neither.
   */
  lemma CopyOneEffect(run: CopyRun, source: Path, output: Path, split: string, img: Path)
    requires run.raised.None? && CopyPossible(run.fs, source, output, split, [img])
    ensures var r := CopyOne(run, source, output, split, img);
      && r.raised.None?
      && r.fs.dirs == run.fs.dirs
      && r.fs.files == run.fs.files[ImageDest(output, split, img) := run.fs.files[img]]
                                   [LabelDest(output, split, img) := KeptLabel(run.fs, source, output, split, img)]
      && r.copied == run.copied + (if AnnotationPath(source, img) in run.fs.files then 1 else 0)
      && r.noLabel == run.noLabel + (if AnnotationPath(source, img) in run.fs.files then 0 else 1)
  {
    var fs := run.fs;
    var id, ld := ImageDest(output, split, img), LabelDest(output, split, img);
    var a := AnnotationPath(source, img);
    assert img in [img];
    DestShapes(output, split, img);
    AnnotationInSource(source, img);
    DisjointTreesApart(source, output, img, id);
    DisjointTreesApart(source, output, a, id);
    DisjointTreesApart(source, output, a, ld);
    assert !IsDir(fs, id) && !IsDir(fs, ld);
    var c1 := Copy2(fs, img, id);
    assert c1.Success?;
    var fs1 := c1.value;
    assert fs1.files == fs.files[id := fs.files[img]];
    assert Exists(fs1, a) <==> a in fs.files;
    assert ld != id by {
      SplitDirsApart(output, LabelsDir(split), ImagesDir(split), ld);
    }
    if a in fs.files {
      assert fs1.files[a] == fs.files[a];
      assert Copy2(fs1, a, ld).Success?;
    } else if ld in fs.files {
      assert Exists(fs1, ld);
      assert fs1.files[ld := fs.files[ld]] == fs1.files;
    } else {
      assert !Exists(fs1, ld);
      assert WriteFile(fs1, ld, Empty).Success?;
    }
  }

  /** Annotation counts agree on two states that agree on every annotation path. */
  lemma {:induction false} CountAnnotatedFrame(fs1: Fs, fs2: Fs, source: Path, imgs: seq<Path>)
    requires forall img :: img in imgs ==>
      (AnnotationPath(source, img) in fs1.files <==> AnnotationPath(source, img) in fs2.files)
    ensures CountAnnotated(fs1, source, imgs) == CountAnnotated(fs2, source, imgs)
  {
    if |imgs| > 0 {
      assert imgs[0] in imgs;
      CountAnnotatedFrame(fs1, fs2, source, imgs[1..]);
    }
  }

  /** A later image's names are among the names of the whole list. */
  lemma NamesOfTail(imgs: seq<Path>)
    requires |imgs| > 0
    ensures ImageNames(imgs) == ImageNames(imgs[1..]) + {Name(imgs[0])}
    ensures LabelNames(imgs) == LabelNames(imgs[1..]) + {LabelName(imgs[0])}
  {
    assert forall x :: x in imgs <==> x == imgs[0] || x in imgs[1..];
  }

  /** The first image's files are written by no later iteration when stems are unique. */
  lemma HeadNotRetouched(imgs: seq<Path>)
    requires |imgs| > 0 && UniqueStems(imgs)
    ensures Name(imgs[0]) !in ImageNames(imgs[1..])
    ensures LabelName(imgs[0]) !in LabelNames(imgs[1..])
    ensures UniqueStems(imgs[1..])
  {
    if Name(imgs[0]) in ImageNames(imgs[1..]) {
      assert false;
    }
    if LabelName(imgs[0]) in LabelNames(imgs[1..]) {
      var b :| b in imgs[1..] && LabelName(b) == LabelName(imgs[0]);
      var j :| 0 <= j < |imgs[1..]| && imgs[1..][j] == b;
      assert imgs[j + 1] == b && imgs[0] != b;
      LabelNameSeparatesStems(b, imgs[0]);
      assert false;
    }
  }

  /** Equal label names come from equal stems. */
  lemma LabelNameSeparatesStems(a: Path, b: Path)
    requires LabelName(a) == LabelName(b)
    ensures Stem(Name(a)) == Stem(Name(b))
  {
    var sa, sb := Stem(Name(a)), Stem(Name(b));
    assert |sa| == |sb|;
    assert sa == (sa + LabelExt)[..|sa|] == (sb + LabelExt)[..|sb|] == sb;
  }

  /** What `CopyFrom(run, ...)` over `imgs` leaves in `r`: the files it writes exist, and no other file changes. */
  ghost predicate WritesExactly(run: Fs, r: Fs, output: Path, split: string, imgs: seq<Path>)
  {
    && (forall q :: !Touched(output, split, imgs, q) ==>
          (q in r.files <==> q in run.files) && (q in run.files ==> r.files[q] == run.files[q]))
    && (forall q :: Touched(output, split, imgs, q) ==> q in r.files)
  }

  /** Every image and label file written holds the source image and the label it should. */
  ghost predicate CopiesFaithful(run: Fs, r: Fs, source: Path, output: Path, split: string, imgs: seq<Path>)
  {
    forall img :: img in imgs ==>
      && img in run.files
      && ImageDest(output, split, img) in r.files
      && LabelDest(output, split, img) in r.files
      && r.files[ImageDest(output, split, img)] == run.files[img]
      && r.files[LabelDest(output, split, img)] == LabelContent(run, source, img)
  }

  /** The state after the first iteration is ready for the rest of the list. */
  lemma TailReady(run: CopyRun, source: Path, output: Path, split: string, imgs: seq<Path>)
    requires |imgs| > 0 && run.raised.None? && CopyReady(run.fs, source, output, split, imgs)
    ensures CopyReady(run.fs, source, output, split, [imgs[0]])
    ensures CopyReady(CopyOne(run, source, output, split, imgs[0]).fs, source, output, split, imgs[1..])
  {
    var img := imgs[0];
    var run1 := CopyOne(run, source, output, split, img);
    assert img in imgs;
    CopyOneEffect(run, source, output, split, img);
    forall x | x in imgs[1..]
      ensures IsFile(run1.fs, x)
    {
      assert x in imgs;
    }
    forall x | x in imgs[1..] && LabelDest(output, split, x) in run1.fs.files
      ensures run1.fs.files[LabelDest(output, split, x)] == LabelContent(run1.fs, source, x)
    {
      assert x in imgs;
      StepKeepsLabel(run, source, output, split, imgs, x);
    }
  }

  /** After one iteration over a ready list, a label in place for any image of the list still holds its intended content. */
  lemma StepKeepsLabel(run: CopyRun, source: Path, output: Path, split: string, imgs: seq<Path>, x: Path)
    requires |imgs| > 0 && run.raised.None? && CopyReady(run.fs, source, output, split, imgs) && x in imgs
    requires LabelDest(output, split, x) in CopyOne(run, source, output, split, imgs[0]).fs.files
    ensures var fs1 := CopyOne(run, source, output, split, imgs[0]).fs;
      fs1.files[LabelDest(output, split, x)] == LabelContent(fs1, source, x)
  {
    var fs, img := run.fs, imgs[0];
    assert img in imgs;
    CopyOneEffect(run, source, output, split, img);
    StepKeepsLabelIn(fs, CopyOne(run, source, output, split, img).fs, source, output, split, img, x);
  }

  /** The file-level step behind StepKeepsLabel: the image and label writes of `img` leave the label of `x` current. */
  lemma StepKeepsLabelIn(fs: Fs, fs1: Fs, source: Path, output: Path, split: string, img: Path, x: Path)
    requires Disjoint(source, output) && IsPrefix(source, img) && IsPrefix(source, x) && img in fs.files
    requires fs1.files == fs.files[ImageDest(output, split, img) := fs.files[img]]
                                  [LabelDest(output, split, img) := KeptLabel(fs, source, output, split, img)]
    requires LabelDest(output, split, img) in fs.files ==>
      fs.files[LabelDest(output, split, img)] == LabelContent(fs, source, img)
    requires LabelDest(output, split, x) in fs.files ==>
      fs.files[LabelDest(output, split, x)] == LabelContent(fs, source, x)
    requires LabelDest(output, split, x) in fs1.files
    ensures fs1.files[LabelDest(output, split, x)] == LabelContent(fs1, source, x)
  {
    var ld := LabelDest(output, split, img);
    CurrentLabelKept(fs, source, output, split, img);
    StepMissesSource(source, output, split, img, x);
    DestShapes(output, split, x);
    SplitDirsApart(output, LabelsDir(split), ImagesDir(split), LabelDest(output, split, x));
    if LabelDest(output, split, x) == ld {
      SameLabelSameAnnotation(fs, source, output, split, x, img);
    }
  }

  /** An image and its annotation are neither of the two files one iteration writes. */
  ghost predicate StepMisses(source: Path, output: Path, split: string, img: Path, x: Path)
  {
    var id, ld := ImageDest(output, split, img), LabelDest(output, split, img);
    AnnotationPath(source, x) != id && AnnotationPath(source, x) != ld && x != id && x != ld
  }

  /** One iteration writes only inside the output tree, so it misses every file of the source tree. */
  lemma StepMissesSource(source: Path, output: Path, split: string, img: Path, x: Path)
    requires Disjoint(source, output) && IsPrefix(source, x)
    ensures StepMisses(source, output, split, img, x)
  {
    var id, ld := ImageDest(output, split, img), LabelDest(output, split, img);
    DestShapes(output, split, img);
    AnnotationInSource(source, x);
    DisjointTreesApart(source, output, AnnotationPath(source, x), id);
    DisjointTreesApart(source, output, AnnotationPath(source, x), ld);
    DisjointTreesApart(source, output, x, id);
    DisjointTreesApart(source, output, x, ld);
  }

  /** The first iteration leaves the source tree alone: the rest of the list reads what the first read. */
  lemma SourceUnchangedByStep(fs: Fs, fs1: Fs, source: Path, output: Path, split: string, img: Path, imgs: seq<Path>)
    requires Disjoint(source, output) && img in fs.files
    requires forall x :: x in imgs ==> IsPrefix(source, x)
    requires fs1.files == fs.files[ImageDest(output, split, img) := fs.files[img]][LabelDest(output, split, img) := LabelContent(fs, source, img)]
    ensures forall x :: x in imgs ==> (x in fs1.files <==> x in fs.files) && (x in fs.files ==> fs1.files[x] == fs.files[x])
    ensures forall x :: x in imgs ==> LabelContent(fs1, source, x) == LabelContent(fs, source, x)
    ensures CountAnnotated(fs1, source, imgs) == CountAnnotated(fs, source, imgs)
  {
    forall x | x in imgs
      ensures (x in fs1.files <==> x in fs.files) && (x in fs.files ==> fs1.files[x] == fs.files[x])
      ensures AnnotationPath(source, x) in fs1.files <==> AnnotationPath(source, x) in fs.files
      ensures LabelContent(fs1, source, x) == LabelContent(fs, source, x)
    {
      StepMissesSource(source, output, split, img, x);
    }
    CountAnnotatedFrame(fs1, fs, source, imgs);
  }

  /** Exactly-these-writes composes: the first iteration's two files plus the rest's. */
  lemma WritesCompose(fs: Fs, fs1: Fs, r: Fs, output: Path, split: string, imgs: seq<Path>)
    requires |imgs| > 0
    requires fs1.files.Keys == fs.files.Keys + {ImageDest(output, split, imgs[0]), LabelDest(output, split, imgs[0])}
    requires forall q :: q != ImageDest(output, split, imgs[0]) && q != LabelDest(output, split, imgs[0]) && q in fs.files ==> fs1.files[q] == fs.files[q]
    requires WritesExactly(fs1, r, output, split, imgs[1..])
    ensures WritesExactly(fs, r, output, split, imgs)
  {
    var id, ld := ImageDest(output, split, imgs[0]), LabelDest(output, split, imgs[0]);
    DestShapes(output, split, imgs[0]);
    NamesOfTail(imgs);
    forall q | !Touched(output, split, imgs, q)
      ensures (q in r.files <==> q in fs.files) && (q in fs.files ==> r.files[q] == fs.files[q])
    {
      assert !Touched(output, split, imgs[1..], q);
      assert q != id && q != ld;
    }
    forall q | Touched(output, split, imgs, q)
      ensures q in r.files
    {
      if !Touched(output, split, imgs[1..], q) {
        if IsChild(output + ImagesDir(split), q) && Name(q) in ImageNames(imgs) {
          ChildByName(output + ImagesDir(split), q);
          assert q == id;
        } else {
          ChildByName(output + LabelsDir(split), q);
          assert q == ld;
        }
      }
    }
  }

  /** Faithful copies compose when no later iteration rewrites the first image's files. */
  lemma FaithfulCompose(fs: Fs, fs1: Fs, r: Fs, source: Path, output: Path, split: string, imgs: seq<Path>)
    requires |imgs| > 0 && UniqueStems(imgs) && imgs[0] in fs.files
    requires fs1.files == fs.files[ImageDest(output, split, imgs[0]) := fs.files[imgs[0]]]
                                  [LabelDest(output, split, imgs[0]) := LabelContent(fs, source, imgs[0])]
    requires imgs[0] in fs.files
    requires forall x :: x in imgs[1..] ==> (x in fs1.files <==> x in fs.files) && (x in fs.files ==> fs1.files[x] == fs.files[x])
    requires forall x :: x in imgs[1..] ==> LabelContent(fs1, source, x) == LabelContent(fs, source, x)
    requires WritesExactly(fs1, r, output, split, imgs[1..])
    requires CopiesFaithful(fs1, r, source, output, split, imgs[1..])
    ensures CopiesFaithful(fs, r, source, output, split, imgs)
  {
    var img := imgs[0];
    var id, ld := ImageDest(output, split, img), LabelDest(output, split, img);
    DestShapes(output, split, img);
    HeadNotRetouched(imgs);
    SplitDirsApart(output, ImagesDir(split), LabelsDir(split), id);
    SplitDirsApart(output, LabelsDir(split), ImagesDir(split), ld);
    assert !Touched(output, split, imgs[1..], id);
    assert !Touched(output, split, imgs[1..], ld);
    assert id != ld;
    forall x | x in imgs
      ensures ImageDest(output, split, x) in r.files && LabelDest(output, split, x) in r.files
      ensures r.files[ImageDest(output, split, x)] == fs.files[x]
      ensures r.files[LabelDest(output, split, x)] == LabelContent(fs, source, x)
    {
      if x != img {
        assert x in imgs[1..];
      }
    }
  }

  /** All `CopyFromEffect` promises about a run from `run` over `imgs` that ended in `r`. */
  ghost predicate CopyEffect(run: CopyRun, r: CopyRun, source: Path, output: Path, split: string, imgs: seq<Path>)
  {
    && r.raised.None?
    && r.fs.dirs == run.fs.dirs
    && r.copied == run.copied + CountAnnotated(run.fs, source, imgs)
    && WritesExactly(run.fs, r.fs, output, split, imgs)
    && (UniqueStems(imgs) ==> CopiesFaithful(run.fs, r.fs, source, output, split, imgs))
  }

  /** What the first iteration does, stated without reference to its definition. */
  ghost predicate FirstStep(run: CopyRun, run1: CopyRun, source: Path, output: Path, split: string, img: Path)
  {
    && run1.raised.None?
    && run1.fs.dirs == run.fs.dirs
    && img in run.fs.files
    && run1.fs.files == run.fs.files[ImageDest(output, split, img) := run.fs.files[img]]
                                    [LabelDest(output, split, img) := LabelContent(run.fs, source, img)]
    && run1.copied == run.copied + (if AnnotationPath(source, img) in run.fs.files then 1 else 0)
  }

  /** The first iteration adds its two files and keeps every other. */
  lemma FirstStepFrame(run: CopyRun, run1: CopyRun, source: Path, output: Path, split: string, img: Path)
    requires FirstStep(run, run1, source, output, split, img)
    ensures run1.fs.files.Keys == run.fs.files.Keys + {ImageDest(output, split, img), LabelDest(output, split, img)}
    ensures forall q :: q != ImageDest(output, split, img) && q != LabelDest(output, split, img) && q in run.fs.files ==>
      run1.fs.files[q] == run.fs.files[q]
  {
  }

  /** With unique stems, the first iteration's copies and the rest's make up the whole loop's. */
  lemma FaithfulStep(run: CopyRun, run1: CopyRun, r: CopyRun, source: Path, output: Path, split: string, imgs: seq<Path>)
    requires |imgs| > 0 && UniqueStems(imgs) && Disjoint(source, output)
    requires forall x :: x in imgs[1..] ==> IsPrefix(source, x)
    requires FirstStep(run, run1, source, output, split, imgs[0])
    requires WritesExactly(run1.fs, r.fs, output, split, imgs[1..])
    requires CopiesFaithful(run1.fs, r.fs, source, output, split, imgs[1..])
    ensures CopiesFaithful(run.fs, r.fs, source, output, split, imgs)
  {
    SourceUnchangedByStep(run.fs, run1.fs, source, output, split, imgs[0], imgs[1..]);
    HeadNotRetouched(imgs);
    FaithfulCompose(run.fs, run1.fs, r.fs, source, output, split, imgs);
  }

  /** The first iteration followed by the rest of the loop has the effect of the whole loop. */
  lemma CopyStep(run: CopyRun, run1: CopyRun, r: CopyRun, source: Path, output: Path, split: string, imgs: seq<Path>)
    requires |imgs| > 0 && Disjoint(source, output)
    requires forall x :: x in imgs ==> IsPrefix(source, x)
    requires FirstStep(run, run1, source, output, split, imgs[0])
    requires CopyEffect(run1, r, source, output, split, imgs[1..])
    ensures CopyEffect(run, r, source, output, split, imgs)
  {
    assert forall x :: x in imgs[1..] ==> x in imgs;
    SourceUnchangedByStep(run.fs, run1.fs, source, output, split, imgs[0], imgs[1..]);
    FirstStepFrame(run, run1, source, output, split, imgs[0]);
    WritesCompose(run.fs, run1.fs, r.fs, output, split, imgs);
    if UniqueStems(imgs) {
      HeadNotRetouched(imgs);
      FaithfulStep(run, run1, r, source, output, split, imgs);
    }
  }

  /**
   `copy_files(imgs, split)` in a state where it cannot raise and no label is
   stale: it finishes, counts as `copied` exactly the images that have an
   annotation, writes the image and label file of every image and changes no
   other file. When stems are unique, each image file holds the source image
   and each label file the annotation, or nothing when there is none.
   */
  lemma {:induction false} CopyFromEffect(run: CopyRun, source: Path, output: Path, split: string, imgs: seq<Path>)
    requires run.raised.None? && CopyReady(run.fs, source, output, split, imgs)
    ensures CopyEffect(run, CopyFrom(run, source, output, split, imgs), source, output, split, imgs)
    decreases |imgs|
  {
    if |imgs| > 0 {
      var run1 := CopyOne(run, source, output, split, imgs[0]);
      TailReady(run, source, output, split, imgs);
      CopyOneEffect(run, source, output, split, imgs[0]);
      assert imgs[0] in imgs;
      CurrentLabelKept(run.fs, source, output, split, imgs[0]);
      CopyFromEffect(run1, source, output, split, imgs[1..]);
      CopyStep(run, run1, CopyFrom(run1, source, output, split, imgs[1..]), source, output, split, imgs);
    }
  }
}

=== FILE: filesystem.dfy ===
/**
 An abstract filesystem and the few operations the partitioner performs on it:
 `exists`, `glob`, `mkdir(parents=True, exist_ok=True)`, `shutil.copy2`,
 `touch` and `open(..., 'w')`. Each operation either succeeds with the new
 state or raises, leaving the state as it was.
 */
module FileSystem {
  import opened Wrappers
  import opened Paths
  import opened DatasetManifest

  /** What a file holds: raw bytes, or a manifest the YAML writer produced. */
  datatype Content = Bytes(data: seq<bv8>) | ManifestFile(manifest: Manifest)

  /** The content of a freshly created empty file. */
  const Empty: Content := Bytes([])

  /** Regular files with their content, and directories. The root `[]` is always a directory. */
  datatype Fs = Fs(files: map<Path, Content>, dirs: set<Path>)

  /** The exceptions the operations raise. */
  datatype FsError =
    | NoSuchFile(path: Path)
    | IsADirectory(path: Path)
    | NotADirectory(path: Path)
    | FileExists(path: Path)
    | SameFile(path: Path)

  predicate IsDir(fs: Fs, p: Path)
  {
    p == [] || p in fs.dirs
  }

  predicate IsFile(fs: Fs, p: Path)
  {
    p in fs.files && !IsDir(fs, p)
  }

  /** `Path.exists()` */
  predicate Exists(fs: Fs, p: Path)
  {
    IsDir(fs, p) || p in fs.files
  }

  /** Every location the filesystem holds something at. */
  function Entries(fs: Fs): set<Path>
  {
    fs.files.Keys + fs.dirs
  }

  /**
   `dir.glob('*' + ext)`: the entries directly inside `dir` whose name ends
   with `ext`, hidden names included, compared case-sensitively.
   */
  function Glob(fs: Fs, dir: Path, ext: string): set<Path>
  {
    if IsDir(fs, dir) then set p | p in Entries(fs) && IsChild(dir, p) && HasSuffix(Name(p), ext) else {}
  }

  /** `l` enumerates the glob of `dir` once each, in some order. */
  ghost predicate IsListing(fs: Fs, dir: Path, ext: string, l: seq<Path>)
  {
    && (forall i, j :: 0 <= i < j < |l| ==> l[i] != l[j])
    && (forall p :: p in l <==> p in Glob(fs, dir, ext))
  }

  /** The directories `mkdir(parents=True)` makes for `p`: `p` and its ancestors below the root. */
  function Ancestry(p: Path): set<Path>
  {
    set k | 0 < k <= |p| :: p[..k]
  }

  /**
   `p.mkdir(parents=True, exist_ok=True)`: creates `p` and any missing
   ancestors; raises when `p` or one of its ancestors is a regular file.
   */
  function Mkdirs(fs: Fs, p: Path): (r: Result<Fs, FsError>)
    ensures r.Success? <==> forall k :: 0 < k <= |p| ==> !IsFile(fs, p[..k])
    ensures r.Success? ==> r.value.files == fs.files && r.value.dirs == fs.dirs + Ancestry(p)
    ensures r.Success? ==> IsDir(r.value, p)
  {
    assert p[..|p|] == p;
    if IsFile(fs, p) then Failure(FileExists(p))
    else if exists k :: 0 < k < |p| && IsFile(fs, p[..k]) then Failure(NotADirectory(p))
    else
      var r := Success(fs.(dirs := fs.dirs + Ancestry(p)));
      assert |p| > 0 ==> p[..|p|] in Ancestry(p);
      r
  }

  function Parent(p: Path): Path
    requires |p| > 0
  {
    p[..|p| - 1]
  }

  /**
   `open(p, 'w')` followed by writing `c`: replaces or creates a regular file;
   raises when `p` is a directory or its parent directory is missing.
   */
  function WriteFile(fs: Fs, p: Path, c: Content): (r: Result<Fs, FsError>)
    ensures r.Success? <==> |p| > 0 && !IsDir(fs, p) && IsDir(fs, Parent(p))
    ensures r.Success? ==> r.value.dirs == fs.dirs && r.value.files == fs.files[p := c]
  {
    if IsDir(fs, p) then Failure(IsADirectory(p))
    else if !IsDir(fs, Parent(p)) then Failure(NoSuchFile(p))
    else Success(fs.(files := fs.files[p := c]))
  }

  /**
   `shutil.copy2(src, dst)`: copies the content of the regular file `src` to
   `dst`, or into `dst` when `dst` is a directory. Metadata is not modelled.
   */
  function Copy2(fs: Fs, src: Path, dst: Path): (r: Result<Fs, FsError>)
    ensures r.Success? ==> IsFile(fs, src) && r.value.dirs == fs.dirs
    ensures r.Success? && !IsDir(fs, dst) ==> r.value.files == fs.files[dst := fs.files[src]]
    ensures IsFile(fs, src) && !IsDir(fs, dst) && dst != src && IsDir(fs, Parent(dst)) ==> r.Success?
  {
    var target := if IsDir(fs, dst) then dst + [Name(src)] else dst;
    if target == src && Exists(fs, src) then Failure(SameFile(src))
    else if IsDir(fs, src) then Failure(IsADirectory(src))
    else if src !in fs.files then Failure(NoSuchFile(src))
    else WriteFile(fs, target, fs.files[src])
  }

  /**
   `Path.touch()`: creates an empty file when nothing exists at `p`; an
   existing file keeps its content (only its timestamps change).
   */
  function Touch(fs: Fs, p: Path): (r: Result<Fs, FsError>)
    ensures r.Success? <==> Exists(fs, p) || (|p| > 0 && IsDir(fs, Parent(p)))
    ensures r.Success? ==> r.value.dirs == fs.dirs && Exists(r.value, p)
    ensures r.Success? ==> forall q :: q in fs.files ==> q in r.value.files && r.value.files[q] == fs.files[q]
    ensures r.Success? ==> forall q :: q in r.value.files && q !in fs.files ==>
      q == p && !Exists(fs, p) && r.value.files[q] == Empty
  {
    if Exists(fs, p) then Success(fs) else WriteFile(fs, p, Empty)
  }
}

=== FILE: label_finding.dfy ===
/**
 The label step for an image without an annotation. `copy_files` calls
 `touch()` on the label path, which keeps a label file that is already
 there; its own comment says the intent is an empty label, meaning "no
 fracture". The model runs the step as written (`LabelAsWritten`); the
 corrected step (`WriteLabel`) is kept beside it, and the two agree wherever
 no label is stale.
 */
module LabelFinding {
  import opened Wrappers
  import opened Paths
  import opened DatasetManifest
  import opened FileSystem
  import opened Partitioner
  import opened CopyProofs

  /**
   The corrected step leaves the label holding the annotation's content, or an
   empty label when there is no annotation, whatever was there before; the
   flag says whether an annotation was found.
   */
  lemma WriteLabelContent(fs: Fs, source: Path, output: Path, split: string, img: Path)
    requires IsDir(fs, output + LabelsDir(split))
    requires !IsDir(fs, LabelDest(output, split, img))
    requires AnnotationPath(source, img) !in fs.dirs
    requires AnnotationPath(source, img) != LabelDest(output, split, img)
    ensures WriteLabel(fs, source, output, split, img).Success?
    ensures var (fs', annotated) := WriteLabel(fs, source, output, split, img).value;
      && fs'.dirs == fs.dirs
      && fs'.files == fs.files[LabelDest(output, split, img) := LabelContent(fs, source, img)]
      && (annotated <==> AnnotationPath(source, img) in fs.files)
  {
    DestShapes(output, split, img);
  }

  /** Where no label exists yet, the step as written and the corrected step agree. */
  lemma AsWrittenAgreesOnFreshLabel(fs: Fs, source: Path, output: Path, split: string, img: Path)
    requires !Exists(fs, LabelDest(output, split, img))
    ensures LabelAsWritten(fs, source, output, split, img) == WriteLabel(fs, source, output, split, img)
  {
  }

  /**
   Wherever the label in place is not stale, the step as written and the
   corrected step have the same effect: the run from a clean start is the
   same under both.
   */
  lemma AsWrittenAgreesOnCurrentLabel(fs: Fs, source: Path, output: Path, split: string, img: Path)
    requires IsDir(fs, output + LabelsDir(split))
    requires !IsDir(fs, LabelDest(output, split, img))
    requires LabelDest(output, split, img) in fs.files ==>
      fs.files[LabelDest(output, split, img)] == LabelContent(fs, source, img)
    ensures LabelAsWritten(fs, source, output, split, img) == WriteLabel(fs, source, output, split, img)
  {
    var ld := LabelDest(output, split, img);
    DestShapes(output, split, img);
    if !Exists(fs, AnnotationPath(source, img)) && ld in fs.files {
      assert fs.files[ld := Empty] == fs.files;
    }
  }

  /** With no annotation, the step as written leaves an existing label file exactly as it was. */
  lemma AsWrittenKeepsStaleLabel(fs: Fs, source: Path, output: Path, split: string, img: Path)
    requires !Exists(fs, AnnotationPath(source, img))
    requires LabelDest(output, split, img) in fs.files
    ensures LabelAsWritten(fs, source, output, split, img) == Success((fs, false))
  {
  }

  /**
   A concrete case: `a.jpg` has no annotation, and `labels/train/a.txt` is
   left from an earlier run holding the byte '0'. The step as written keeps
   that label, so the image keeps a fracture box it no longer has; the
   corrected step empties it.
   */
  lemma StaleLabelSurvives()
    ensures var source, output := ["src"], ["out"];
      var img := ["src", "images", "Fractured", "a.jpg"];
      var stale := ["out", "labels", "train", "a.txt"];
      var fs := Fs(map[stale := Bytes([48])], {["out"], ["out", "labels"], ["out", "labels", "train"]});
      && LabelDest(output, "train", img) == stale
      && LabelAsWritten(fs, source, output, "train", img) == Success((fs, false))
      && WriteLabel(fs, source, output, "train", img) == Success((Fs(map[stale := Empty], fs.dirs), false))
  {
    var source, output := ["src"], ["out"];
    var img := ["src", "images", "Fractured", "a.jpg"];
    var stale := ["out", "labels", "train", "a.txt"];
    var fs := Fs(map[stale := Bytes([48])], {["out"], ["out", "labels"], ["out", "labels", "train"]});
    StemStrips("a", ".jpg");
    assert "a" + ".jpg" == "a.jpg";
    assert LabelName(img) == "a.txt" by {
      assert "a" + LabelExt == "a.txt";
    }
    assert LabelDest(output, "train", img) == stale;
    assert AnnotationPath(source, img) == ["src", "Annotations", "YOLO", "a.txt"];
    assert !Exists(fs, AnnotationPath(source, img));
    assert Parent(stale) == ["out", "labels", "train"];
    assert fs.files[stale := Empty] == map[stale := Empty];
  }
}

=== FILE: layout_proofs.dfy ===
/**
 What the layout step does to a filesystem with nothing yet inside the output
 directory: it succeeds, changes no file, and creates only the output
 directory's ancestors and the `images`/`labels` directories of each split.
 */
module LayoutProofs {
  import opened Wrappers
  import opened Paths
  import opened DatasetManifest
  import opened FileSystem
  import opened Partitioner

  /** No regular file lies strictly inside `output`, and neither `output` nor an ancestor of it is a regular file. */
  ghost predicate LayoutPossible(fs: Fs, output: Path)
  {
    && (forall q :: q in fs.files && IsPrefix(output, q) ==> |q| == |output|)
    && (forall k :: 0 < k <= |output| ==> !IsFile(fs, output[..k]))
  }

  /** A directory the layout may create: an ancestor of `output`, or `images` or `labels` inside it, or a directory right below those. */
  ghost predicate Shallow(output: Path, d: Path)
  {
    || IsPrefix(d, output)
    || (IsPrefix(output, d) && |output| < |d| <= |output| + 2 && d[|output|] in {"images", "labels"})
  }

  /** Creating one split directory below a possible layout. */
  lemma MkdirsSplitDir(fs: Fs, output: Path, sub: Path)
    requires LayoutPossible(fs, output) && |sub| == 2
    requires sub[0] in {"images", "labels"}
    ensures Mkdirs(fs, output + sub).Success?
    ensures forall d :: d in Ancestry(output + sub) ==> Shallow(output, d)
    ensures IsDir(Mkdirs(fs, output + sub).value, output)
  {
    var p := output + sub;
    forall k | 0 < k <= |p|
      ensures !IsFile(fs, p[..k])
    {
      if k <= |output| {
        assert p[..k] == output[..k];
      } else {
        assert p[..k][..|output|] == output;
      }
    }
    forall d | d in Ancestry(p)
      ensures Shallow(output, d)
    {
      var k :| 0 < k <= |p| && d == p[..k];
      if k <= |output| {
        assert d == output[..k];
      } else {
        assert d[..|output|] == output;
        assert d[|output|] == sub[0];
      }
    }
    if |output| > 0 {
      assert output == p[..|output|];
    }
  }

  /**
   The layout of a possible output directory succeeds, leaves every file as it
   was, and adds only shallow directories.
   */
  lemma {:induction false} LayoutEffect(fs: Fs, output: Path, splits: seq<string>)
    requires LayoutPossible(fs, output)
    ensures var r := MakeLayout(fs, output, splits);
      && r.raised.None?
      && r.fs.files == fs.files
      && (forall d :: d in r.fs.dirs && d !in fs.dirs ==> Shallow(output, d))
      && (|splits| > 0 ==> IsDir(r.fs, output))
    decreases |splits|
  {
    if |splits| > 0 {
      MkdirsSplitDir(fs, output, ImagesDir(splits[0]));
      var fs1 := Mkdirs(fs, output + ImagesDir(splits[0])).value;
      MkdirsSplitDir(fs1, output, LabelsDir(splits[0]));
      var fs2 := Mkdirs(fs1, output + LabelsDir(splits[0])).value;
      LayoutEffect(fs2, output, splits[1..]);
    }
  }
}

=== FILE: manifest.dfy ===
/**
 The dataset manifest `data.yaml`: the absolute dataset root, the image
 directory of each split relative to it, and the class table. The YAML text
 is represented by the record it encodes.
 */
module DatasetManifest {
  import opened Paths

  /** The split names, in the order the partitioner creates and fills them. */
  const SplitNames: seq<string> := ["train", "val", "test"]

  /** The file name of the manifest inside the dataset root. */
  const ManifestName: string := "data.yaml"

  /** `images/<split>` below the dataset root. */
  function ImagesDir(split: string): Path
  {
    ["images", split]
  }

  /** `labels/<split>` below the dataset root. */
  function LabelsDir(split: string): Path
  {
    ["labels", split]
  }

  datatype Manifest = Manifest(
    path: Path,
    train: Path,
    val: Path,
    test: Path,
    names: map<nat, string>,
    nc: nat)
  {
    /** The directory the manifest declares for a split name. */
    function SplitDir(split: string): Path
    {
      if split == "train" then train
      else if split == "val" then val
      else test
    }
  }

  /**
   What a YOLO reader relies on: `nc` counts the classes and the class ids are
   exactly `0 .. nc - 1`.
   */
  ghost predicate Consistent(m: Manifest)
  {
    && m.nc == |m.names|
    && forall c: nat :: c in m.names <==> c < m.nc
  }

  /** The manifest written for the dataset rooted at `output`. */
  function ForOutput(output: Path): (m: Manifest)
    ensures Consistent(m)
    ensures m.path == output
    ensures forall s :: s in SplitNames ==> m.SplitDir(s) == ImagesDir(s)
    ensures m.nc == 1 && m.names[0] == "fracture"
  {
    var m := Manifest(output, ImagesDir("train"), ImagesDir("val"), ImagesDir("test"),
                      map[0 := "fracture"], 1);
    m
  }
}

=== FILE: partitioner.dfy ===
/**
 The FracAtlas partitioner: collect the `.jpg` images of the two class
 folders, shuffle them, cut the list into train, val and test, copy every
 image with its label into the split directories and write the manifest;
 and the check that compares image and label counts afterwards.
 */
module Partitioner {
  import opened Wrappers
  import opened Paths
  import opened DatasetManifest
  import opened FileSystem
  import opened Shuffling
  import opened Slicing

  const Fractured: string := "Fractured"
  const NonFractured: string := "Non_fractured"
  const ImageExt: string := ".jpg"
  const LabelExt: string := ".txt"

  /** `source / 'images' / cls`, where the images of one class are collected. */
  function ClassDir(source: Path, cls: string): Path
  {
    source + ["images", cls]
  }

  /** `img_path.stem + '.txt'` */
  function LabelName(img: Path): string
  {
    Stem(Name(img)) + LabelExt
  }

  /** `source / 'Annotations' / 'YOLO' / label_name`: the YOLO annotation of an image, if it has one. */
  function AnnotationPath(source: Path, img: Path): Path
  {
    source + ["Annotations", "YOLO", LabelName(img)]
  }

  /** `output / 'images' / split / img_path.name` */
  function ImageDest(output: Path, split: string, img: Path): Path
  {
    output + ImagesDir(split) + [Name(img)]
  }

  /** `output / 'labels' / split / label_name` */
  function LabelDest(output: Path, split: string, img: Path): Path
  {
    output + LabelsDir(split) + [LabelName(img)]
  }

  /** The label an image should receive: its annotation when there is one, an empty file otherwise. */
  function LabelContent(fs: Fs, source: Path, img: Path): Content
  {
    var a := AnnotationPath(source, img);
    if a in fs.files then fs.files[a] else Empty
  }

  /** The filesystem when control leaves a stage, and the exception that left with it, if any. */
  datatype Run = Run(fs: Fs, raised: Option<FsError>)

  /** The same for `copy_files`, with its two counters. */
  datatype CopyRun = CopyRun(fs: Fs, copied: nat, noLabel: nat, raised: Option<FsError>)

  /**
   The directory layout: for each split, `images/<split>` and then
   `labels/<split>` below the output root, stopping at the first failure.
   */
  function MakeLayout(fs: Fs, output: Path, splits: seq<string>): (r: Run)
    ensures r.fs.files == fs.files && fs.dirs <= r.fs.dirs
    ensures r.raised.None? ==> forall s :: s in splits ==> IsDir(r.fs, output + ImagesDir(s)) && IsDir(r.fs, output + LabelsDir(s))
    decreases |splits|
  {
    if |splits| == 0 then Run(fs, None)
    else match Mkdirs(fs, output + ImagesDir(splits[0]))
      case Failure(e) => Run(fs, Some(e))
      case Success(fs1) =>
        match Mkdirs(fs1, output + LabelsDir(splits[0]))
        case Failure(e) => Run(fs1, Some(e))
        case Success(fs2) => MakeLayout(fs2, output, splits[1..])
  }

  /**
   The label step of `copy_files` as its comment intends it: the annotation is
   copied when it exists, otherwise an empty file is written, replacing
   whatever was there. The flag says whether an annotation was found.
   */
  function WriteLabel(fs: Fs, source: Path, output: Path, split: string, img: Path): (r: Result<(Fs, bool), FsError>)
    ensures r.Success? ==> r.value.0.dirs == fs.dirs && (r.value.1 <==> Exists(fs, AnnotationPath(source, img)))
    ensures r.Success? && !IsDir(fs, LabelDest(output, split, img)) ==>
      r.value.0.files == fs.files[LabelDest(output, split, img) := LabelContent(fs, source, img)]
  {
    var src := AnnotationPath(source, img);
    var dst := LabelDest(output, split, img);
    if Exists(fs, src) then
      match Copy2(fs, src, dst)
      case Failure(e) => Failure(e)
      case Success(fs') => Success((fs', true))
    else
      match WriteFile(fs, dst, Empty)
      case Failure(e) => Failure(e)
      case Success(fs') => Success((fs', false))
  }

  /**
   The label step of `copy_files` as written: when there is no annotation the
   label is `touch`ed, which leaves an existing label file as it was.
   */
  function LabelAsWritten(fs: Fs, source: Path, output: Path, split: string, img: Path): (r: Result<(Fs, bool), FsError>)
    ensures r.Success? ==> r.value.0.dirs == fs.dirs && (r.value.1 <==> Exists(fs, AnnotationPath(source, img)))
    ensures r.Success? && !IsDir(fs, LabelDest(output, split, img)) ==>
      forall q :: q in fs.files && q != LabelDest(output, split, img) ==>
        q in r.value.0.files && r.value.0.files[q] == fs.files[q]
    ensures r.Success? && !r.value.1 && LabelDest(output, split, img) in fs.files ==> r.value.0 == fs
    ensures r.Success? && !IsDir(fs, LabelDest(output, split, img)) ==>
      var a, l := AnnotationPath(source, img), LabelDest(output, split, img);
      r.value.0.files == fs.files[l := if a in fs.files then fs.files[a] else if l in fs.files then fs.files[l] else Empty]
  {
    var src := AnnotationPath(source, img);
    var dst := LabelDest(output, split, img);
    if Exists(fs, src) then
      match Copy2(fs, src, dst)
      case Failure(e) => Failure(e)
      case Success(fs') => Success((fs', true))
    else
      match Touch(fs, dst)
      case Failure(e) => Failure(e)
      case Success(fs') => Success((fs', false))
  }

  /** One iteration of the loop in `copy_files`: the image, then its label, then one counter. */
  function CopyOne(run: CopyRun, source: Path, output: Path, split: string, img: Path): (r: CopyRun)
    requires run.raised.None?
    ensures r.fs.dirs == run.fs.dirs
    ensures r.raised.None? ==>
      || (r.copied == run.copied + 1 && r.noLabel == run.noLabel)
      || (r.copied == run.copied && r.noLabel == run.noLabel + 1)
    ensures r.raised.Some? ==> r.copied == run.copied && r.noLabel == run.noLabel
  {
    match Copy2(run.fs, img, ImageDest(output, split, img))
    case Failure(e) => run.(raised := Some(e))
    case Success(fs1) =>
      match LabelAsWritten(fs1, source, output, split, img)
      case Failure(e) => CopyRun(fs1, run.copied, run.noLabel, Some(e))
      case Success((fs2, annotated)) =>
        if annotated then CopyRun(fs2, run.copied + 1, run.noLabel, None)
        else CopyRun(fs2, run.copied, run.noLabel + 1, None)
  }

  /**
   The rest of the loop in `copy_files` over `imgs`. When it finishes, each
   image has added one to exactly one counter; when it raises, the image being
   copied was not counted.
   */
  function CopyFrom(run: CopyRun, source: Path, output: Path, split: string, imgs: seq<Path>): (r: CopyRun)
    ensures run.raised.Some? ==> r == run
    ensures run.raised.None? && r.raised.None? ==> r.copied + r.noLabel == run.copied + run.noLabel + |imgs|
    ensures run.raised.None? && r.raised.Some? ==> r.copied + r.noLabel < run.copied + run.noLabel + |imgs|
    ensures r.copied >= run.copied && r.noLabel >= run.noLabel
    ensures r.fs.dirs == run.fs.dirs
    decreases |imgs|
  {
    if |imgs| == 0 || run.raised.Some? then run
    else CopyFrom(CopyOne(run, source, output, split, imgs[0]), source, output, split, imgs[1..])
  }

  /** `copy_files(imgs, split)`: `copied + no_label` is the number of images when no exception escapes. */
  function CopyFiles(fs: Fs, source: Path, output: Path, split: string, imgs: seq<Path>): (r: CopyRun)
    ensures r.raised.None? ==> r.copied + r.noLabel == |imgs|
    ensures r.raised.Some? ==> r.copied + r.noLabel < |imgs|
    ensures r.fs.dirs == fs.dirs
  {
    CopyFrom(CopyRun(fs, 0, 0, None), source, output, split, imgs)
  }

  /** The three `copy_files` calls, in the order train, val, test; an exception stops the rest. */
  function Materialize(fs: Fs, source: Path, output: Path, plan: Splits<Path>): (r: Run)
    ensures r.fs.dirs == fs.dirs
  {
    var t := CopyFiles(fs, source, output, "train", plan.train);
    if t.raised.Some? then Run(t.fs, t.raised)
    else
      var v := CopyFiles(t.fs, source, output, "val", plan.val);
      if v.raised.Some? then Run(v.fs, v.raised)
      else
        var s := CopyFiles(v.fs, source, output, "test", plan.test);
        Run(s.fs, s.raised)
  }

  /** The fractured images followed by the non-fractured ones, shuffled and cut into the three splits. */
  function Plan(fractured: seq<Path>, nonFractured: seq<Path>, draws: seq<nat>, trainRatio: real, valRatio: real): Splits<Path>
    requires ValidDraws(draws, |fractured| + |nonFractured|)
  {
    SplitList(Shuffle(fractured + nonFractured, draws), trainRatio, valRatio)
  }

  /** What `prepare_fracatlas_dataset` leaves behind: the filesystem, and its return value or the exception it raised. */
  datatype Outcome = Outcome(fs: Fs, ret: Result<Option<PathArg>, FsError>)

  /**
   `prepare_fracatlas_dataset`. The two listings are what `glob('*.jpg')`
   returns for the class folders once the layout exists; the draws are what
   the seeded generator yields. `testRatio` is only printed by the source.
   */
  function Prepare(
    fs: Fs, cwd: Path, sourceArg: PathArg, outputArg: PathArg,
    trainRatio: real, valRatio: real, testRatio: real,
    fractured: seq<Path>, nonFractured: seq<Path>, draws: seq<nat>): (o: Outcome)
    requires IsListing(MakeLayout(fs, Resolve(cwd, outputArg), SplitNames).fs,
                       ClassDir(Resolve(cwd, sourceArg), Fractured), ImageExt, fractured)
    requires IsListing(MakeLayout(fs, Resolve(cwd, outputArg), SplitNames).fs,
                       ClassDir(Resolve(cwd, sourceArg), NonFractured), ImageExt, nonFractured)
    requires ValidDraws(draws, |fractured| + |nonFractured|)
    ensures o.ret == Success(None) <==> !Exists(fs, Resolve(cwd, sourceArg))
    ensures o.ret == Success(None) ==> o.fs == fs
    ensures o.ret.Success? && o.ret.value.Some? ==>
      && o.ret.value.value == outputArg.Join(ManifestName)
      && Resolve(cwd, outputArg) + [ManifestName] in o.fs.files
      && o.fs.files[Resolve(cwd, outputArg) + [ManifestName]] == ManifestFile(ForOutput(Resolve(cwd, outputArg)))
  {
    var source := Resolve(cwd, sourceArg);
    var output := Resolve(cwd, outputArg);
    if !Exists(fs, source) then Outcome(fs, Success(None))
    else
      var r := Populate(fs, source, output, Plan(fractured, nonFractured, draws, trainRatio, valRatio));
      if r.raised.Some? then Outcome(r.fs, Failure(r.raised.value))
      else Outcome(r.fs, Success(Some(outputArg.Join(ManifestName))))
  }

  /**
   Everything after the source check, for a given plan: the layout, the three
   copies and the manifest, stopping at the first exception.
   */
  function Populate(fs: Fs, source: Path, output: Path, plan: Splits<Path>): (r: Run)
    ensures fs.dirs <= r.fs.dirs
    ensures r.raised.None? ==>
      && output + [ManifestName] in r.fs.files
      && r.fs.files[output + [ManifestName]] == ManifestFile(ForOutput(output))
  {
    var layout := MakeLayout(fs, output, SplitNames);
    if layout.raised.Some? then layout
    else
      var copied := Materialize(layout.fs, source, output, plan);
      if copied.raised.Some? then copied
      else
        match WriteFile(copied.fs, output + [ManifestName], ManifestFile(ForOutput(output)))
        case Failure(e) => Run(copied.fs, Some(e))
        case Success(fs') => Run(fs', None)
  }

  /** The counts `verify_dataset` prints for one split, and whether it warns about them. */
  datatype SplitCheck = SplitCheck(split: string, images: nat, labels: nat, warned: bool)

  /** Everything `verify_dataset` reports. */
  datatype Report = Report(checks: seq<SplitCheck>, manifestFound: bool)

  /** The count check of one split. */
  function CheckSplit(fs: Fs, dataset: Path, split: string): SplitCheck
  {
    var imgs := |Glob(fs, dataset + ImagesDir(split), ImageExt)|;
    var lbls := |Glob(fs, dataset + LabelsDir(split), LabelExt)|;
    SplitCheck(split, imgs, lbls, imgs != lbls)
  }

  /** The count checks of several splits, none of which stops the others. */
  function CheckSplits(fs: Fs, dataset: Path, splits: seq<string>): (cs: seq<SplitCheck>)
    ensures |cs| == |splits|
    ensures forall i :: 0 <= i < |splits| ==> cs[i] == CheckSplit(fs, dataset, splits[i])
  {
    if |splits| == 0 then [] else [CheckSplit(fs, dataset, splits[0])] + CheckSplits(fs, dataset, splits[1..])
  }

  /** `verify_dataset(dataset_dir)` */
  function VerifyDataset(fs: Fs, cwd: Path, datasetArg: PathArg): (r: Report)
    ensures |r.checks| == |SplitNames|
    ensures forall i :: 0 <= i < |SplitNames| ==>
      var dataset, c := Resolve(cwd, datasetArg), r.checks[i];
      && c.split == SplitNames[i]
      && c.images == |Glob(fs, dataset + ImagesDir(SplitNames[i]), ImageExt)|
      && c.labels == |Glob(fs, dataset + LabelsDir(SplitNames[i]), LabelExt)|
      && (c.warned <==> c.images != c.labels)
    ensures r.manifestFound <==> Exists(fs, Resolve(cwd, datasetArg) + [ManifestName])
  {
    var dataset := Resolve(cwd, datasetArg);
    Report(CheckSplits(fs, dataset, SplitNames), Exists(fs, dataset + [ManifestName]))
  }
}

=== FILE: paths.dfy ===
/**
 Paths as the partitioner builds them with pathlib's `/` operator, and the
 parts of a file name it looks at: the final component, its stem and its suffix.
 */
module Paths {

  /** A resolved location: its components below the root; the root itself is `[]`. */
  type Path = seq<string>

  /** A path as a caller passes it; a relative one is taken against the working directory. */
  datatype PathArg = Absolute(parts: seq<string>) | Relative(parts: seq<string>)
  {
    /** `self / c` */
    function Join(c: string): (r: PathArg)
      ensures r.Absolute? == this.Absolute? && r.parts == parts + [c]
    {
      match this
      case Absolute(p) => Absolute(p + [c])
      case Relative(p) => Relative(p + [c])
    }
  }

  /** pathlib's `absolute()`: the location a path argument names, given the working directory. */
  function Resolve(cwd: Path, a: PathArg): Path
  {
    match a
    case Absolute(p) => p
    case Relative(p) => cwd + p
  }

  /** `a` is `b` or one of its ancestors. */
  predicate IsPrefix(a: Path, b: Path)
  {
    |a| <= |b| && b[..|a|] == a
  }

  /** `b` is an entry directly inside directory `a`. */
  predicate IsChild(a: Path, b: Path)
  {
    |b| == |a| + 1 && b[..|a|] == a
  }

  /** Neither tree contains the other. */
  predicate Disjoint(a: Path, b: Path)
  {
    !IsPrefix(a, b) && !IsPrefix(b, a)
  }

  /** Nothing lies inside two disjoint trees at once. */
  lemma DisjointTreesApart(a: Path, b: Path, x: Path, y: Path)
    requires Disjoint(a, b) && IsPrefix(a, x) && IsPrefix(b, y)
    ensures x != y
  {
  }

  /** A location inside one of two disjoint trees is outside the other. */
  lemma OutsideOther(a: Path, b: Path, x: Path)
    requires Disjoint(a, b) && IsPrefix(a, x)
    ensures !IsPrefix(b, x)
  {
  }

  /** A location below `a + b` lies below `a`. */
  lemma PrefixOfExtension(a: Path, b: Path, x: Path)
    requires IsPrefix(a + b, x)
    ensures IsPrefix(a, x)
  {
    assert x[..|a|] == x[..|a + b|][..|a|] == (a + b)[..|a|] == a;
  }

  /** pathlib's `name`: the final component ("" for the root). */
  function Name(p: Path): string
  {
    if |p| == 0 then "" else p[|p| - 1]
  }

  /** Python's `str.rfind(c)`: the index of the last `c` in `s`, or -1 when there is none. */
  function RFind(s: string, c: char): (i: int)
    ensures -1 <= i < |s|
    ensures 0 <= i ==> s[i] == c
    ensures forall k :: i < k < |s| ==> s[k] != c
  {
    if |s| == 0 then -1
    else if s[|s| - 1] == c then |s| - 1
    else RFind(s[..|s| - 1], c)
  }

  /**
   pathlib's `stem`: the name without its last suffix. A dot that opens the
   name (a hidden file) or ends it does not start a suffix.
   */
  function Stem(name: string): string
  {
    var i := RFind(name, '.');
    if 0 < i < |name| - 1 then name[..i] else name
  }

  /** `s` ends with `suffix`; the test `fnmatch` applies for a pattern `*` + suffix. */
  predicate HasSuffix(s: string, suffix: string)
  {
    |suffix| <= |s| && s[|s| - |suffix|..] == suffix
  }

  /** An extension as the partitioner uses them: a dot followed by at least one character that is not a dot. */
  predicate IsExtension(ext: string)
  {
    |ext| >= 2 && ext[0] == '.' && forall k :: 1 <= k < |ext| ==> ext[k] != '.'
  }

  /** Stripping an extension: the stem of `base + ext` is `base` whenever `base` is not empty. */
  lemma StemStrips(base: string, ext: string)
    requires IsExtension(ext) && |base| > 0
    ensures Stem(base + ext) == base
  {
    var name := base + ext;
    var i := RFind(name, '.');
    assert name[|base|] == '.';
    forall k | |base| < k < |name|
      ensures name[k] != '.'
    {
      assert name[k] == ext[k - |base|];
    }
    assert i == |base|;
    assert name[..i] == base;
  }

  /** A stem is never empty when the name is not. */
  lemma StemNonEmpty(name: string)
    requires |name| > 0
    ensures |Stem(name)| > 0
  {
  }

  /**
   The label name built from an image's stem gives that stem back: the stem of
   `Stem(n) + ".txt"` is `Stem(n)`.
   */
  lemma LabelStemRoundTrip(name: string)
    requires |name| > 0
    ensures Stem(Stem(name) + ".txt") == Stem(name)
  {
    StemNonEmpty(name);
    StemStrips(Stem(name), ".txt");
  }

  /**
   Two different `.jpg` names can share a stem: pathlib gives the hidden file
   `.jpg` the stem `.jpg`, and `.jpg.jpg` has the same stem.
   */
  lemma HiddenJpgSharesStem()
    ensures ".jpg" != ".jpg.jpg" && Stem(".jpg") == Stem(".jpg.jpg") == ".jpg"
  {
    StemStrips(".jpg", ".jpg");
    assert ".jpg" + ".jpg" == ".jpg.jpg";
    var name := ".jpg";
    var i := RFind(name, '.');
    assert name[0] == '.' && name[1] == 'j' && name[2] == 'p' && name[3] == 'g';
    assert i == 0;
    assert Stem(name) == name;
  }
}

=== FILE: prepare_proofs.dfy ===
/**
 What a whole run of `prepare_fracatlas_dataset` leaves behind when the
 source exists and nothing is yet inside the output directory, and what
 `verify_dataset` then reports.
 */
module PrepareProofs {
  import opened Wrappers
  import opened Paths
  import opened DatasetManifest
  import opened FileSystem
  import opened Shuffling
  import opened Slicing
  import opened Partitioner
  import opened CopyProofs
  import opened LayoutProofs

  /** The images a split receives. */
  function Part(plan: Splits<Path>, split: string): seq<Path>
  {
    if split == "train" then plan.train
    else if split == "val" then plan.val
    else plan.test
  }

  /**
   A start in which no copy can fail: source and output trees are apart,
   nothing is inside the output directory yet, neither it nor an ancestor is
   a regular file, every listed image is a regular file and no annotation
   path is a directory.
   */
  ghost predicate CleanStart(fs: Fs, source: Path, output: Path, imgs: seq<Path>)
  {
    && Disjoint(source, output)
    && (forall q :: q in Entries(fs) && IsPrefix(output, q) ==> |q| == |output|)
    && (forall k :: 0 < k <= |output| ==> !IsFile(fs, output[..k]))
    && (forall img :: img in imgs ==> IsFile(fs, img) && AnnotationPath(source, img) !in fs.dirs)
  }

  /** Outside the output directory, `after` holds the same files as `before`. */
  ghost predicate AgreeOutside(before: Fs, after: Fs, output: Path)
  {
    forall q :: !IsPrefix(output, q) ==>
      (q in after.files <==> q in before.files) && (q in before.files ==> after.files[q] == before.files[q])
  }

  /** What a split directory pair holds after the run. */
  ghost predicate SplitMaterialised(fs: Fs, after: Fs, source: Path, output: Path, split: string, imgs: seq<Path>)
  {
    && IsDir(after, output + ImagesDir(split))
    && IsDir(after, output + LabelsDir(split))
    && (forall q :: IsChild(output + ImagesDir(split), q) ==> (q in Entries(after) <==> Name(q) in ImageNames(imgs)))
    && (forall q :: IsChild(output + LabelsDir(split), q) ==> (q in Entries(after) <==> Name(q) in LabelNames(imgs)))
    && (UniqueStems(imgs) ==> CopiesFaithful(fs, after, source, output, split, imgs))
  }

  /** Everything a successful run leaves behind. */
  ghost predicate Materialised(fs: Fs, after: Fs, source: Path, output: Path, plan: Splits<Path>)
  {
    && output + [ManifestName] in after.files
    && after.files[output + [ManifestName]] == ManifestFile(ForOutput(output))
    && AgreeOutside(fs, after, output)
    && SplitMaterialised(fs, after, source, output, "train", plan.train)
    && SplitMaterialised(fs, after, source, output, "val", plan.val)
    && SplitMaterialised(fs, after, source, output, "test", plan.test)
  }

  /** Every image a split receives is one of the listed images. */
  lemma PlanWithin(fractured: seq<Path>, nonFractured: seq<Path>, draws: seq<nat>, trainRatio: real, valRatio: real, split: string)
    requires ValidDraws(draws, |fractured| + |nonFractured|)
    ensures var part := Part(Plan(fractured, nonFractured, draws, trainRatio, valRatio), split);
      && (forall x :: x in part ==> x in fractured + nonFractured)
      && (UniqueStems(fractured + nonFractured) ==> UniqueStems(part))
  {
    var all := fractured + nonFractured;
    var shuffled := Shuffle(all, draws);
    forall x | x in shuffled
      ensures x in all
    {
      ShuffleKeepsElements(all, draws, x);
    }
    var n := |shuffled|;
    var a, b := TrainSize(n, trainRatio), ValSize(n, valRatio);
    SliceWithin(shuffled, None, Some(a));
    SliceWithin(shuffled, Some(a), Some(a + b));
    SliceWithin(shuffled, Some(a + b), None);
  }

  /** The files a split's copy writes lie inside the output directory. */
  lemma TouchedInsideOutput(output: Path, split: string, imgs: seq<Path>, q: Path)
    requires Touched(output, split, imgs, q)
    ensures IsPrefix(output, q)
  {
    assert q[..|output|] == q[..|output| + 2][..|output|];
  }

  /** A split's copy leaves everything outside the output directory alone. */
  lemma CopyAgreesOutside(before: Fs, after: Fs, output: Path, split: string, imgs: seq<Path>)
    requires WritesExactly(before, after, output, split, imgs)
    ensures AgreeOutside(before, after, output)
  {
    forall q | !IsPrefix(output, q)
      ensures !Touched(output, split, imgs, q)
    {
      if Touched(output, split, imgs, q) {
        TouchedInsideOutput(output, split, imgs, q);
      }
    }
  }

  lemma AgreeOutsideTrans(a: Fs, b: Fs, c: Fs, output: Path)
    requires AgreeOutside(a, b, output) && AgreeOutside(b, c, output)
    ensures AgreeOutside(a, c, output)
  {
  }

  /** Another split's copy leaves a split's directories alone. */
  lemma OtherSplitUntouched(output: Path, s: string, other: string, imgs: seq<Path>, q: Path)
    requires s != other
    requires IsChild(output + ImagesDir(s), q) || IsChild(output + LabelsDir(s), q)
    ensures !Touched(output, other, imgs, q)
  {
    if IsChild(output + ImagesDir(s), q) {
      SplitDirsApart(output, ImagesDir(s), ImagesDir(other), q);
      SplitDirsApart(output, ImagesDir(s), LabelsDir(other), q);
    } else {
      SplitDirsApart(output, LabelsDir(s), ImagesDir(other), q);
      SplitDirsApart(output, LabelsDir(s), LabelsDir(other), q);
    }
  }

  /** The state after one split's copy is still ready for the copy of another split. */
  lemma ReadyAfter(before: Fs, after: Fs, source: Path, output: Path, done: string, imgsDone: seq<Path>, split: string, imgs: seq<Path>)
    requires CopyReady(before, source, output, split, imgs) && done != split
    requires after.dirs == before.dirs && WritesExactly(before, after, output, done, imgsDone)
    ensures CopyReady(after, source, output, split, imgs)
  {
    forall img | img in imgs
      ensures img in after.files
    {
      SourceNotTouched(source, output, done, imgsDone, img);
    }
    forall img | img in imgs
      ensures LabelContent(after, source, img) == LabelContent(before, source, img)
      ensures LabelDest(output, split, img) in after.files <==> LabelDest(output, split, img) in before.files
      ensures LabelDest(output, split, img) in before.files ==>
        after.files[LabelDest(output, split, img)] == before.files[LabelDest(output, split, img)]
    {
      AnnotationInSource(source, img);
      SourceNotTouched(source, output, done, imgsDone, AnnotationPath(source, img));
      DestShapes(output, split, img);
      OtherSplitUntouched(output, split, done, imgsDone, LabelDest(output, split, img));
    }
  }

  /** A path in the source tree is never a directory the layout creates. */
  lemma LayoutMissesSource(output: Path, source: Path, x: Path)
    requires Disjoint(source, output) && IsPrefix(source, x)
    ensures !Shallow(output, x)
  {
    if IsPrefix(output, x) {
      DisjointTreesApart(source, output, x, x);
    }
  }

  /** After the layout of a clean start, every split's copy is ready. */
  lemma LayoutReady(fs: Fs, source: Path, output: Path, imgs: seq<Path>, split: string, part: seq<Path>)
    requires CleanStart(fs, source, output, imgs) && split in SplitNames
    requires forall x :: x in part ==> x in imgs && IsPrefix(source, x)
    ensures CopyReady(MakeLayout(fs, output, SplitNames).fs, source, output, split, part)
  {
    var L := MakeLayout(fs, output, SplitNames).fs;
    LayoutEffect(fs, output, SplitNames);
    forall d | d in L.dirs && IsPrefix(output, d)
      ensures |d| <= |output| + 2
    {
      if d in fs.dirs {
        assert d in Entries(fs);
      }
    }
    forall img | img in part
      ensures IsFile(L, img) && AnnotationPath(source, img) !in L.dirs
      ensures LabelDest(output, split, img) !in L.files
    {
      LayoutMissesSource(output, source, img);
      AnnotationInSource(source, img);
      LayoutMissesSource(output, source, AnnotationPath(source, img));
      DestShapes(output, split, img);
      ChildNotInLayout(fs, L, output, split, LabelDest(output, split, img));
    }
  }

  /** A copy's files: those there before, and those it writes. */
  lemma WrittenIff(a: Fs, b: Fs, output: Path, split: string, imgs: seq<Path>, q: Path)
    requires WritesExactly(a, b, output, split, imgs)
    ensures q in b.files <==> q in a.files || Touched(output, split, imgs, q)
  {
  }

  /** A split directory's entries do not exist before the copies of a clean start. */
  lemma ChildNotInLayout(fs: Fs, L: Fs, output: Path, split: string, q: Path)
    requires IsChild(output + ImagesDir(split), q) || IsChild(output + LabelsDir(split), q)
    requires forall p :: p in Entries(fs) && IsPrefix(output, p) ==> |p| == |output|
    requires L.files == fs.files && forall d :: d in L.dirs && d !in fs.dirs ==> Shallow(output, d)
    ensures q !in L.files && q !in L.dirs && q != output + [ManifestName]
  {
    assert q[..|output|] == q[..|output| + 2][..|output|];
    assert q !in Entries(fs);
  }

  /** A split's entries after the run are exactly the files its own copy wrote. */
  lemma SplitChildren(fs: Fs, L: Fs, t: Fs, v: Fs, e: Fs, F: Fs, output: Path, plan: Splits<Path>, split: string, q: Path)
    requires split in SplitNames
    requires IsChild(output + ImagesDir(split), q) || IsChild(output + LabelsDir(split), q)
    requires forall p :: p in Entries(fs) && IsPrefix(output, p) ==> |p| == |output|
    requires L.files == fs.files && forall d :: d in L.dirs && d !in fs.dirs ==> Shallow(output, d)
    requires WritesExactly(L, t, output, "train", plan.train)
    requires WritesExactly(t, v, output, "val", plan.val)
    requires WritesExactly(v, e, output, "test", plan.test)
    requires F.dirs == L.dirs && F.files == e.files[output + [ManifestName] := ManifestFile(ForOutput(output))]
    ensures q in Entries(F) <==> Touched(output, split, Part(plan, split), q)
  {
    ChildNotInLayout(fs, L, output, split, q);
    WrittenIff(L, t, output, "train", plan.train, q);
    WrittenIff(t, v, output, "val", plan.val, q);
    WrittenIff(v, e, output, "test", plan.test, q);
    if split != "train" {
      OtherSplitUntouched(output, split, "train", plan.train, q);
    }
    if split != "val" {
      OtherSplitUntouched(output, split, "val", plan.val, q);
    }
    if split != "test" {
      OtherSplitUntouched(output, split, "test", plan.test, q);
    }
  }

  /** Files of a split's directories agree between `a` and `b`. */
  ghost predicate SplitDirsSame(a: Fs, b: Fs, output: Path, split: string)
  {
    forall q :: IsChild(output + ImagesDir(split), q) || IsChild(output + LabelsDir(split), q) ==>
      (q in b.files <==> q in a.files) && (q in a.files ==> b.files[q] == a.files[q])
  }

  /** Another split's copy keeps a split's directories. */
  lemma OtherCopyKeeps(a: Fs, b: Fs, output: Path, split: string, other: string, imgs: seq<Path>)
    requires split != other && WritesExactly(a, b, output, other, imgs)
    ensures SplitDirsSame(a, b, output, split)
  {
    forall q | IsChild(output + ImagesDir(split), q) || IsChild(output + LabelsDir(split), q)
      ensures !Touched(output, other, imgs, q)
    {
      OtherSplitUntouched(output, split, other, imgs, q);
    }
  }

  /** Writing the manifest keeps every split's directories. */
  lemma ManifestKeeps(a: Fs, b: Fs, output: Path, split: string)
    requires b.files == a.files[output + [ManifestName] := ManifestFile(ForOutput(output))]
    ensures SplitDirsSame(a, b, output, split)
  {
  }

  lemma SplitDirsSameTrans(a: Fs, b: Fs, c: Fs, output: Path, split: string)
    requires SplitDirsSame(a, b, output, split) && SplitDirsSame(b, c, output, split)
    ensures SplitDirsSame(a, c, output, split)
  {
  }

  /** A split's faithful copies survive everything that runs after it. */
  lemma FaithfulAfterRun(fs: Fs, start: Fs, own: Fs, F: Fs, source: Path, output: Path, split: string, imgs: seq<Path>)
    requires Disjoint(source, output) && forall x :: x in imgs ==> IsPrefix(source, x)
    requires AgreeOutside(fs, start, output)
    requires CopiesFaithful(start, own, source, output, split, imgs)
    requires SplitDirsSame(own, F, output, split)
    ensures CopiesFaithful(fs, F, source, output, split, imgs)
  {
    forall img | img in imgs
      ensures img in fs.files && fs.files[img] == start.files[img]
      ensures LabelContent(fs, source, img) == LabelContent(start, source, img)
    {
      OutsideOther(source, output, img);
      AnnotationInSource(source, img);
      OutsideOther(source, output, AnnotationPath(source, img));
    }
    forall img | img in imgs
      ensures ImageDest(output, split, img) in F.files && LabelDest(output, split, img) in F.files
      ensures F.files[ImageDest(output, split, img)] == own.files[ImageDest(output, split, img)]
      ensures F.files[LabelDest(output, split, img)] == own.files[LabelDest(output, split, img)]
    {
      DestShapes(output, split, img);
    }
  }

  /** One split's directories at the end of a run from a clean start. */
  lemma SplitFinal(fs: Fs, L: Fs, t: Fs, v: Fs, e: Fs, F: Fs, start: Fs, own: Fs,
                   source: Path, output: Path, plan: Splits<Path>, split: string)
    requires split in SplitNames
    requires forall p :: p in Entries(fs) && IsPrefix(output, p) ==> |p| == |output|
    requires L.files == fs.files && forall d :: d in L.dirs && d !in fs.dirs ==> Shallow(output, d)
    requires WritesExactly(L, t, output, "train", plan.train)
    requires WritesExactly(t, v, output, "val", plan.val)
    requires WritesExactly(v, e, output, "test", plan.test)
    requires F.dirs == L.dirs && F.files == e.files[output + [ManifestName] := ManifestFile(ForOutput(output))]
    requires IsDir(L, output + ImagesDir(split)) && IsDir(L, output + LabelsDir(split))
    requires Disjoint(source, output) && forall x :: x in Part(plan, split) ==> IsPrefix(source, x)
    requires AgreeOutside(fs, start, output)
    requires UniqueStems(Part(plan, split)) ==> CopiesFaithful(start, own, source, output, split, Part(plan, split))
    requires SplitDirsSame(own, F, output, split)
    ensures SplitMaterialised(fs, F, source, output, split, Part(plan, split))
  {
    var imgs := Part(plan, split);
    forall q | IsChild(output + ImagesDir(split), q)
      ensures q in Entries(F) <==> Name(q) in ImageNames(imgs)
    {
      SplitChildren(fs, L, t, v, e, F, output, plan, split, q);
      SplitDirsApart(output, ImagesDir(split), LabelsDir(split), q);
    }
    forall q | IsChild(output + LabelsDir(split), q)
      ensures q in Entries(F) <==> Name(q) in LabelNames(imgs)
    {
      SplitChildren(fs, L, t, v, e, F, output, plan, split, q);
      SplitDirsApart(output, LabelsDir(split), ImagesDir(split), q);
    }
    if UniqueStems(imgs) {
      FaithfulAfterRun(fs, start, own, F, source, output, split, imgs);
    }
  }

  /** The three copies of a run whose layout left every split ready. */
  lemma ThreeCopies(L: Fs, source: Path, output: Path, plan: Splits<Path>)
    requires CopyReady(L, source, output, "train", plan.train)
    requires CopyReady(L, source, output, "val", plan.val)
    requires CopyReady(L, source, output, "test", plan.test)
    ensures var t := CopyFiles(L, source, output, "train", plan.train);
      var v := CopyFiles(t.fs, source, output, "val", plan.val);
      var e := CopyFiles(v.fs, source, output, "test", plan.test);
      && t.raised.None? && v.raised.None? && e.raised.None?
      && Materialize(L, source, output, plan) == Run(e.fs, None)
      && t.fs.dirs == L.dirs && v.fs.dirs == L.dirs && e.fs.dirs == L.dirs
      && WritesExactly(L, t.fs, output, "train", plan.train)
      && WritesExactly(t.fs, v.fs, output, "val", plan.val)
      && WritesExactly(v.fs, e.fs, output, "test", plan.test)
      && (UniqueStems(plan.train) ==> CopiesFaithful(L, t.fs, source, output, "train", plan.train))
      && (UniqueStems(plan.val) ==> CopiesFaithful(t.fs, v.fs, source, output, "val", plan.val))
      && (UniqueStems(plan.test) ==> CopiesFaithful(v.fs, e.fs, source, output, "test", plan.test))
  {
    var t := CopyFiles(L, source, output, "train", plan.train);
    CopyFromEffect(CopyRun(L, 0, 0, None), source, output, "train", plan.train);
    ReadyAfter(L, t.fs, source, output, "train", plan.train, "val", plan.val);
    ReadyAfter(L, t.fs, source, output, "train", plan.train, "test", plan.test);
    var v := CopyFiles(t.fs, source, output, "val", plan.val);
    CopyFromEffect(CopyRun(t.fs, 0, 0, None), source, output, "val", plan.val);
    ReadyAfter(t.fs, v.fs, source, output, "val", plan.val, "test", plan.test);
    CopyFromEffect(CopyRun(v.fs, 0, 0, None), source, output, "test", plan.test);
  }

  /** The copies and the manifest write change nothing outside the output directory. */
  lemma FinalAgree(fs: Fs, L: Fs, t: Fs, v: Fs, e: Fs, F: Fs, output: Path, plan: Splits<Path>)
    requires L.files == fs.files
    requires WritesExactly(L, t, output, "train", plan.train)
    requires WritesExactly(t, v, output, "val", plan.val)
    requires WritesExactly(v, e, output, "test", plan.test)
    requires F.files == e.files[output + [ManifestName] := ManifestFile(ForOutput(output))]
    ensures AgreeOutside(fs, L, output) && AgreeOutside(fs, t, output) && AgreeOutside(fs, v, output)
    ensures AgreeOutside(fs, F, output)
  {
    CopyAgreesOutside(L, t, output, "train", plan.train);
    CopyAgreesOutside(t, v, output, "val", plan.val);
    CopyAgreesOutside(v, e, output, "test", plan.test);
    AgreeOutsideTrans(fs, L, t, output);
    AgreeOutsideTrans(fs, t, v, output);
    AgreeOutsideTrans(fs, v, e, output);
    assert AgreeOutside(e, F, output) by {
      assert (output + [ManifestName])[..|output|] == output;
    }
    AgreeOutsideTrans(fs, e, F, output);
  }

  /** What each split's copy wrote survives the later copies and the manifest write. */
  lemma FinalKeeps(t: Fs, v: Fs, e: Fs, F: Fs, output: Path, plan: Splits<Path>)
    requires WritesExactly(t, v, output, "val", plan.val)
    requires WritesExactly(v, e, output, "test", plan.test)
    requires F.files == e.files[output + [ManifestName] := ManifestFile(ForOutput(output))]
    ensures SplitDirsSame(t, F, output, "train")
    ensures SplitDirsSame(v, F, output, "val")
    ensures SplitDirsSame(e, F, output, "test")
  {
    OtherCopyKeeps(t, v, output, "train", "val", plan.val);
    OtherCopyKeeps(v, e, output, "train", "test", plan.test);
    OtherCopyKeeps(v, e, output, "val", "test", plan.test);
    ManifestKeeps(e, F, output, "train");
    ManifestKeeps(e, F, output, "val");
    ManifestKeeps(e, F, output, "test");
    SplitDirsSameTrans(v, e, F, output, "train");
    SplitDirsSameTrans(t, v, F, output, "train");
    SplitDirsSameTrans(v, e, F, output, "val");
  }

  /** The state after the manifest write is everything a successful run leaves behind. */
  lemma FinalState(fs: Fs, L: Fs, t: Fs, v: Fs, e: Fs, F: Fs, source: Path, output: Path, plan: Splits<Path>)
    requires forall p :: p in Entries(fs) && IsPrefix(output, p) ==> |p| == |output|
    requires L.files == fs.files && forall d :: d in L.dirs && d !in fs.dirs ==> Shallow(output, d)
    requires forall s :: s in SplitNames ==> IsDir(L, output + ImagesDir(s)) && IsDir(L, output + LabelsDir(s))
    requires Disjoint(source, output)
    requires forall x :: x in plan.train ==> IsPrefix(source, x)
    requires forall x :: x in plan.val ==> IsPrefix(source, x)
    requires forall x :: x in plan.test ==> IsPrefix(source, x)
    requires WritesExactly(L, t, output, "train", plan.train)
    requires WritesExactly(t, v, output, "val", plan.val)
    requires WritesExactly(v, e, output, "test", plan.test)
    requires UniqueStems(plan.train) ==> CopiesFaithful(L, t, source, output, "train", plan.train)
    requires UniqueStems(plan.val) ==> CopiesFaithful(t, v, source, output, "val", plan.val)
    requires UniqueStems(plan.test) ==> CopiesFaithful(v, e, source, output, "test", plan.test)
    requires F.dirs == L.dirs && F.files == e.files[output + [ManifestName] := ManifestFile(ForOutput(output))]
    ensures Materialised(fs, F, source, output, plan)
  {
    FinalAgree(fs, L, t, v, e, F, output, plan);
    FinalKeeps(t, v, e, F, output, plan);
    SplitFinal(fs, L, t, v, e, F, L, t, source, output, plan, "train");
    SplitFinal(fs, L, t, v, e, F, t, v, source, output, plan, "val");
    SplitFinal(fs, L, t, v, e, F, v, e, source, output, plan, "test");
  }

  /** No directory of the layout or of a clean start sits where the manifest goes. */
  lemma ManifestSlotFree(fs: Fs, L: Fs, output: Path)
    requires forall p :: p in Entries(fs) && IsPrefix(output, p) ==> |p| == |output|
    requires forall d :: d in L.dirs && d !in fs.dirs ==> Shallow(output, d)
    ensures output + [ManifestName] !in L.dirs
  {
    var yaml := output + [ManifestName];
    assert yaml[..|output|] == output;
    assert yaml !in Entries(fs);
  }

  /** Every listed image lies in the source tree. */
  lemma ListedInSource(fs: Fs, source: Path, fractured: seq<Path>, nonFractured: seq<Path>)
    requires IsListing(fs, ClassDir(source, Fractured), ImageExt, fractured)
    requires IsListing(fs, ClassDir(source, NonFractured), ImageExt, nonFractured)
    ensures forall x :: x in fractured + nonFractured ==> IsPrefix(source, x)
  {
    forall x | x in fractured + nonFractured
      ensures IsPrefix(source, x)
    {
      var cls := if x in fractured then Fractured else NonFractured;
      assert IsChild(ClassDir(source, cls), x);
      PrefixOfExtension(source, ["images", cls], x);
    }
  }

  /** From a clean start the layout succeeds and leaves every split's copy ready and the manifest's place free. */
  lemma CleanLayout(fs: Fs, source: Path, output: Path, plan: Splits<Path>, all: seq<Path>)
    requires CleanStart(fs, source, output, all)
    requires forall x :: x in all ==> IsPrefix(source, x)
    requires forall x :: x in plan.train ==> x in all
    requires forall x :: x in plan.val ==> x in all
    requires forall x :: x in plan.test ==> x in all
    ensures var layout := MakeLayout(fs, output, SplitNames);
      && layout.raised.None?
      && layout.fs.files == fs.files
      && (forall d :: d in layout.fs.dirs && d !in fs.dirs ==> Shallow(output, d))
      && IsDir(layout.fs, output) && output + [ManifestName] !in layout.fs.dirs
      && CopyReady(layout.fs, source, output, "train", plan.train)
      && CopyReady(layout.fs, source, output, "val", plan.val)
      && CopyReady(layout.fs, source, output, "test", plan.test)
  {
    var L := MakeLayout(fs, output, SplitNames).fs;
    LayoutEffect(fs, output, SplitNames);
    LayoutReady(fs, source, output, all, "train", plan.train);
    LayoutReady(fs, source, output, all, "val", plan.val);
    LayoutReady(fs, source, output, all, "test", plan.test);
    ManifestSlotFree(fs, L, output);
  }

  /** When the layout and the copies succeed and the manifest's place is free, the run ends with the manifest written. */
  lemma PopulateSucceeds(fs: Fs, L: Fs, e: Fs, source: Path, output: Path, plan: Splits<Path>)
    requires MakeLayout(fs, output, SplitNames) == Run(L, None)
    requires Materialize(L, source, output, plan) == Run(e, None)
    requires IsDir(e, output) && output + [ManifestName] !in e.dirs
    ensures Populate(fs, source, output, plan)
      == Run(e.(files := e.files[output + [ManifestName] := ManifestFile(ForOutput(output))]), None)
  {
    var F := e.(files := e.files[output + [ManifestName] := ManifestFile(ForOutput(output))]);
    assert WriteFile(e, output + [ManifestName], ManifestFile(ForOutput(output))) == Success(F);
  }

  /**
   From a clean start, the layout, the three copies and the manifest write all
   succeed, and they leave everything a run should.
   */
  lemma CleanPopulate(fs: Fs, source: Path, output: Path, plan: Splits<Path>, all: seq<Path>)
    requires CleanStart(fs, source, output, all)
    requires forall x :: x in all ==> IsPrefix(source, x)
    requires forall x :: x in plan.train ==> x in all
    requires forall x :: x in plan.val ==> x in all
    requires forall x :: x in plan.test ==> x in all
    ensures var r := Populate(fs, source, output, plan);
      r.raised.None? && Materialised(fs, r.fs, source, output, plan)
  {
    var L := MakeLayout(fs, output, SplitNames).fs;
    CleanLayout(fs, source, output, plan, all);
    ThreeCopies(L, source, output, plan);
    var t := CopyFiles(L, source, output, "train", plan.train);
    var v := CopyFiles(t.fs, source, output, "val", plan.val);
    var e := CopyFiles(v.fs, source, output, "test", plan.test);
    var F := e.fs.(files := e.fs.files[output + [ManifestName] := ManifestFile(ForOutput(output))]);
    PopulateSucceeds(fs, L, e.fs, source, output, plan);
    FinalState(fs, L, t.fs, v.fs, e.fs, F, source, output, plan);
  }

  /**
   A run from a clean start with an existing source: it returns the manifest
   path, leaves everything outside the output directory alone, writes the
   manifest, and fills each split's directories with exactly the images of
   that split and their labels.
   */
  lemma PrepareEffect(
    fs: Fs, cwd: Path, sourceArg: PathArg, outputArg: PathArg,
    trainRatio: real, valRatio: real, testRatio: real,
    fractured: seq<Path>, nonFractured: seq<Path>, draws: seq<nat>)
    requires IsListing(MakeLayout(fs, Resolve(cwd, outputArg), SplitNames).fs,
                       ClassDir(Resolve(cwd, sourceArg), Fractured), ImageExt, fractured)
    requires IsListing(MakeLayout(fs, Resolve(cwd, outputArg), SplitNames).fs,
                       ClassDir(Resolve(cwd, sourceArg), NonFractured), ImageExt, nonFractured)
    requires ValidDraws(draws, |fractured| + |nonFractured|)
    requires Exists(fs, Resolve(cwd, sourceArg))
    requires CleanStart(fs, Resolve(cwd, sourceArg), Resolve(cwd, outputArg), fractured + nonFractured)
    ensures var o := Prepare(fs, cwd, sourceArg, outputArg, trainRatio, valRatio, testRatio, fractured, nonFractured, draws);
      && o.ret == Success(Some(outputArg.Join(ManifestName)))
      && Materialised(fs, o.fs, Resolve(cwd, sourceArg), Resolve(cwd, outputArg),
                      Plan(fractured, nonFractured, draws, trainRatio, valRatio))
  {
    var source, output := Resolve(cwd, sourceArg), Resolve(cwd, outputArg);
    var plan := Plan(fractured, nonFractured, draws, trainRatio, valRatio);
    ListedInSource(MakeLayout(fs, output, SplitNames).fs, source, fractured, nonFractured);
    PlanWithin(fractured, nonFractured, draws, trainRatio, valRatio, "train");
    PlanWithin(fractured, nonFractured, draws, trainRatio, valRatio, "val");
    PlanWithin(fractured, nonFractured, draws, trainRatio, valRatio, "test");
    CleanPopulate(fs, source, output, plan, fractured + nonFractured);
  }

  /** A missing source directory ends the run at once: nothing is created and nothing is returned. */
  lemma MissingSourceReturnsEarly(
    fs: Fs, cwd: Path, sourceArg: PathArg, outputArg: PathArg,
    trainRatio: real, valRatio: real, testRatio: real,
    fractured: seq<Path>, nonFractured: seq<Path>, draws: seq<nat>)
    requires IsListing(MakeLayout(fs, Resolve(cwd, outputArg), SplitNames).fs,
                       ClassDir(Resolve(cwd, sourceArg), Fractured), ImageExt, fractured)
    requires IsListing(MakeLayout(fs, Resolve(cwd, outputArg), SplitNames).fs,
                       ClassDir(Resolve(cwd, sourceArg), NonFractured), ImageExt, nonFractured)
    requires ValidDraws(draws, |fractured| + |nonFractured|)
    requires !Exists(fs, Resolve(cwd, sourceArg))
    ensures Prepare(fs, cwd, sourceArg, outputArg, trainRatio, valRatio, testRatio, fractured, nonFractured, draws)
      == Outcome(fs, Success(None))
  {
  }

  /** With non-negative ratios the three splits together hold every collected image exactly as often as the listings do. */
  lemma PlanPartitions(fractured: seq<Path>, nonFractured: seq<Path>, draws: seq<nat>, trainRatio: real, valRatio: real)
    requires ValidDraws(draws, |fractured| + |nonFractured|)
    requires 0.0 <= trainRatio && 0.0 <= valRatio
    ensures var plan := Plan(fractured, nonFractured, draws, trainRatio, valRatio);
      multiset(plan.train) + multiset(plan.val) + multiset(plan.test) == multiset(fractured) + multiset(nonFractured)
  {
    var shuffled := Shuffle(fractured + nonFractured, draws);
    var plan := SplitList(shuffled, trainRatio, valRatio);
    SplitIsPartition(shuffled, trainRatio, valRatio);
    assert multiset(plan.train + plan.val + plan.test) == multiset(plan.train) + multiset(plan.val) + multiset(plan.test);
  }

  /** The test ratio takes no part in the run: any two values give the same outcome. */
  lemma TestRatioIgnored(
    fs: Fs, cwd: Path, sourceArg: PathArg, outputArg: PathArg,
    trainRatio: real, valRatio: real, testRatio: real, otherTestRatio: real,
    fractured: seq<Path>, nonFractured: seq<Path>, draws: seq<nat>)
    requires IsListing(MakeLayout(fs, Resolve(cwd, outputArg), SplitNames).fs,
                       ClassDir(Resolve(cwd, sourceArg), Fractured), ImageExt, fractured)
    requires IsListing(MakeLayout(fs, Resolve(cwd, outputArg), SplitNames).fs,
                       ClassDir(Resolve(cwd, sourceArg), NonFractured), ImageExt, nonFractured)
    requires ValidDraws(draws, |fractured| + |nonFractured|)
    ensures Prepare(fs, cwd, sourceArg, outputArg, trainRatio, valRatio, testRatio, fractured, nonFractured, draws)
      == Prepare(fs, cwd, sourceArg, outputArg, trainRatio, valRatio, otherTestRatio, fractured, nonFractured, draws)
  {
  }
}

=== FILE: shuffling.dfy ===
/**
 The shuffle of the image list. CPython's `Random.shuffle` walks the list from
 its last position down to position 1 and swaps position `i` with a position
 drawn below `i + 1`. The generator seeded with 42 is not modelled; the values
 it would draw are a parameter, so the same draws always give the same order.
 */
module Shuffling {

  /** No element occurs twice. */
  predicate Distinct<T(==)>(s: seq<T>)
  {
    forall i, j :: 0 <= i < j < |s| ==> s[i] != s[j]
  }

  /**
   Draws a shuffle of `n` elements can receive: one per position `n - 1`
   down to 1, the `k`-th draw being at most `n - 1 - k`.
   */
  predicate ValidDraws(draws: seq<nat>, n: nat)
  {
    && |draws| == (if n == 0 then 0 else n - 1)
    && forall k :: 0 <= k < |draws| ==> draws[k] <= n - 1 - k
  }

  /** `x[i], x[j] = x[j], x[i]` */
  function Swap<T(==)>(s: seq<T>, i: nat, j: nat): (r: seq<T>)
    requires i < |s| && j < |s|
    ensures |r| == |s| && r[i] == s[j] && r[j] == s[i]
    ensures forall k :: 0 <= k < |s| && k != i && k != j ==> r[k] == s[k]
    ensures multiset(r) == multiset(s)
    ensures Distinct(s) ==> Distinct(r)
  {
    SwapKeepsDistinct(s, i, j);
    s[i := s[j]][j := s[i]]
  }

  /** Exchanging two positions is a bijection on positions, so it keeps elements apart. */
  lemma SwapKeepsDistinct<T>(s: seq<T>, i: nat, j: nat)
    requires i < |s| && j < |s|
    ensures Distinct(s) ==> Distinct(s[i := s[j]][j := s[i]])
  {
    var r := s[i := s[j]][j := s[i]];
    if Distinct(s) {
      forall a, b | 0 <= a < b < |r|
        ensures r[a] != r[b]
      {
        var pa := if a == i then j else if a == j then i else a;
        var pb := if b == i then j else if b == j then i else b;
        assert r[a] == s[pa] && r[b] == s[pb];
      }
    }
  }

  /** The iterations of the shuffle loop for positions `i` down to 1. */
  function ShuffleDown<T(==)>(s: seq<T>, draws: seq<nat>, i: nat): (r: seq<T>)
    requires i < |s| && |draws| == i
    requires forall k :: 0 <= k < i ==> draws[k] <= i - k
    ensures |r| == |s|
    ensures multiset(r) == multiset(s)
    ensures Distinct(s) ==> Distinct(r)
    decreases i
  {
    if i == 0 then s
    else ShuffleDown(Swap(s, i, draws[0]), draws[1..], i - 1)
  }

  /** `random.shuffle(s)` when the generator yields `draws`. */
  function Shuffle<T(==)>(s: seq<T>, draws: seq<nat>): (r: seq<T>)
    requires ValidDraws(draws, |s|)
    ensures |r| == |s|
    ensures multiset(r) == multiset(s)
    ensures Distinct(s) ==> Distinct(r)
  {
    if |s| == 0 then s else ShuffleDown(s, draws, |s| - 1)
  }

  /** A shuffle keeps exactly the elements it was given. */
  lemma ShuffleKeepsElements<T>(s: seq<T>, draws: seq<nat>, x: T)
    requires ValidDraws(draws, |s|)
    ensures x in Shuffle(s, draws) <==> x in s
  {
    assert x in multiset(Shuffle(s, draws)) <==> x in multiset(s);
  }
}

=== FILE: slicing.dfy ===
/**
 The split of the shuffled list into train, val and test: two sizes obtained
 with Python's `int()` from `total * ratio`, and three slices whose bounds
 Python clamps to the list. The ratios are reals; the IEEE rounding of the
 product is not modelled.
 */
module Slicing {
  import opened Wrappers
  import opened Shuffling

  /** Python's `int(x)` on a number: truncation toward zero. */
  function Trunc(x: real): (n: int)
    ensures 0.0 <= x ==> n as real <= x < n as real + 1.0
    ensures x < 0.0 ==> n as real - 1.0 < x <= n as real
  {
    if x >= 0.0 then x.Floor else -((-x).Floor)
  }

  /** CPython's normalisation of a slice bound against a sequence of length `n`. */
  function Bound(i: int, n: nat): (b: nat)
    ensures b <= n
    ensures 0 <= i <= n ==> b == i
    ensures n < i ==> b == n
    ensures i < 0 && 0 <= i + n ==> b == i + n
    ensures i + n < 0 ==> b == 0
  {
    if i < 0 then (if i + n < 0 then 0 else i + n)
    else if i > n then n
    else i
  }

  /** `s[lo:hi]`, an absent bound standing for the start or the end. */
  function Slice<T>(s: seq<T>, lo: Option<int>, hi: Option<int>): seq<T>
  {
    var l := match lo case None => 0 case Some(i) => Bound(i, |s|);
    var h := match hi case None => |s| case Some(i) => Bound(i, |s|);
    if l < h then s[l..h] else []
  }

  /** A slice holds only elements of the sequence, and no element twice when the sequence has none twice. */
  lemma SliceWithin<T>(s: seq<T>, lo: Option<int>, hi: Option<int>)
    ensures forall x :: x in Slice(s, lo, hi) ==> x in s
    ensures Distinct(s) ==> Distinct(Slice(s, lo, hi))
  {
    var r := Slice(s, lo, hi);
    if r != [] {
      var l := match lo case None => 0 case Some(i) => Bound(i, |s|);
      var h := match hi case None => |s| case Some(i) => Bound(i, |s|);
      assert r == s[l..h];
      assert forall k :: 0 <= k < |r| ==> r[k] == s[l + k];
    }
  }

  /** The three parts of a split. */
  datatype Splits<T> = Splits(train: seq<T>, val: seq<T>, test: seq<T>)

  /** `int(total * train_ratio)` */
  function TrainSize(total: nat, trainRatio: real): int
  {
    Trunc(total as real * trainRatio)
  }

  /** `int(total * val_ratio)` */
  function ValSize(total: nat, valRatio: real): int
  {
    Trunc(total as real * valRatio)
  }

  /**
   `all_images[:train_size]`, `all_images[train_size:train_size + val_size]`
   and `all_images[train_size + val_size:]`. The test ratio takes no part.
   */
  function SplitList<T>(s: seq<T>, trainRatio: real, valRatio: real): Splits<T>
  {
    var trainSize := TrainSize(|s|, trainRatio);
    var valSize := ValSize(|s|, valRatio);
    Splits(Slice(s, None, Some(trainSize)),
           Slice(s, Some(trainSize), Some(trainSize + valSize)),
           Slice(s, Some(trainSize + valSize), None))
  }

  /** For non-negative sizes the three slices cut `s` at two clamped points. */
  lemma SlicesAtCuts<T>(s: seq<T>, a: int, b: int)
    requires 0 <= a && 0 <= b
    ensures Slice(s, None, Some(a)) == s[..Bound(a, |s|)]
    ensures Slice(s, Some(a), Some(a + b)) == s[Bound(a, |s|)..Bound(a + b, |s|)]
    ensures Slice(s, Some(a + b), None) == s[Bound(a + b, |s|)..]
  {
  }

  /**
   Whatever their size, non-negative ratios split the list into three
   consecutive pieces that give it back: every image lands in exactly one
   split, at its own position.
   */
  lemma SplitIsPartition<T>(s: seq<T>, trainRatio: real, valRatio: real)
    requires 0.0 <= trainRatio && 0.0 <= valRatio
    ensures var sp := SplitList(s, trainRatio, valRatio);
      && sp.train + sp.val + sp.test == s
      && |sp.train| + |sp.val| + |sp.test| == |s|
  {
    var n := |s|;
    var a := TrainSize(n, trainRatio);
    var b := ValSize(n, valRatio);
    assert 0.0 <= n as real * trainRatio && 0.0 <= n as real * valRatio;
    SlicesAtCuts(s, a, b);
    var x, y := Bound(a, n), Bound(a + b, n);
    assert x <= y;
    assert s[..x] + s[x..y] + s[y..] == s;
  }

  /** Shares of `n` by two non-negative fractions summing to at most 1 are non-negative and sum to at most `n`. */
  lemma ShareSum(n: nat, p: real, q: real)
    requires 0.0 <= p && 0.0 <= q && p + q <= 1.0
    ensures 0.0 <= n as real * p && 0.0 <= n as real * q
    ensures n as real * p + n as real * q <= n as real
  {
    var m := n as real;
    assert m * p + m * q == m * (p + q);
    assert m - m * (p + q) == m * (1.0 - (p + q));
  }

  /** Two non-negative reals summing to at most `n` truncate to their floors, which sum to at most `n`. */
  lemma TruncsFit(n: nat, x: real, y: real)
    requires 0.0 <= x && 0.0 <= y && x + y <= n as real
    ensures Trunc(x) == x.Floor && Trunc(y) == y.Floor
    ensures 0 <= Trunc(x) && 0 <= Trunc(y) && Trunc(x) + Trunc(y) <= n
  {
    var a, b := Trunc(x), Trunc(y);
    assert (a + b) as real == a as real + b as real <= n as real;
  }

  /**
   With non-negative ratios summing to at most 1, the two sizes are the floors
   of the shares, and they fit in the list together.
   */
  lemma FloorsFit(n: nat, p: real, q: real)
    requires 0.0 <= p && 0.0 <= q && p + q <= 1.0
    ensures TrainSize(n, p) == (n as real * p).Floor && ValSize(n, q) == (n as real * q).Floor
    ensures 0 <= TrainSize(n, p) && 0 <= ValSize(n, q) && TrainSize(n, p) + ValSize(n, q) <= n
  {
    ShareSum(n, p, q);
    TruncsFit(n, n as real * p, n as real * q);
  }

  /** Slices at two in-range cuts have the lengths of the pieces between the cuts. */
  lemma SliceLengths<T>(s: seq<T>, a: int, b: int)
    requires 0 <= a && 0 <= b && a + b <= |s|
    ensures |Slice(s, None, Some(a))| == a
    ensures |Slice(s, Some(a), Some(a + b))| == b
    ensures |Slice(s, Some(a + b), None)| == |s| - a - b
  {
    SlicesAtCuts(s, a, b);
  }

  /**
   With non-negative ratios summing to at most 1, train and val receive the
   floors of `total * ratio` and test the remainder.
   */
  lemma SplitSizes<T>(s: seq<T>, trainRatio: real, valRatio: real)
    requires 0.0 <= trainRatio && 0.0 <= valRatio && trainRatio + valRatio <= 1.0
    ensures var sp := SplitList(s, trainRatio, valRatio);
      && |sp.train| == (|s| as real * trainRatio).Floor
      && |sp.val| == (|s| as real * valRatio).Floor
      && |sp.test| == |s| - |sp.train| - |sp.val|
  {
    var n := |s|;
    var a, b := TrainSize(n, trainRatio), ValSize(n, valRatio);
    FloorsFit(n, trainRatio, valRatio);
    SliceLengths(s, a, b);
  }

  /** Ten images at 0.7 and 0.2 split as 7, 2 and 1. */
  lemma TenImagesSplitSevenTwoOne<T>(s: seq<T>)
    requires |s| == 10
    ensures var sp := SplitList(s, 0.7, 0.2);
      |sp.train| == 7 && |sp.val| == 2 && |sp.test| == 1
  {
    SplitSizes(s, 0.7, 0.2);
    assert (10 as real * 0.7).Floor == 7;
    assert (10 as real * 0.2).Floor == 2;
  }

  /**
   A negative ratio is not rejected, and the slices then overlap: with ten
   images, -0.3 and 0.5 give a train slice of 7 and a test slice of 8, so the
   five images at positions 2 to 6 go to both train and test.
   */
  lemma NegativeRatioOverlaps<T>(s: seq<T>)
    requires |s| == 10
    ensures var sp := SplitList(s, -0.3, 0.5);
      && |sp.train| == 7 && |sp.val| == 0 && |sp.test| == 8
      && sp.train == s[..7] && sp.test == s[2..]
      && sp.train[2..] == sp.test[..5] == s[2..7]
  {
    var sp := SplitList(s, -0.3, 0.5);
    assert TrainSize(10, -0.3) == -3;
    assert ValSize(10, 0.5) == 5;
    assert sp.train == s[..7];
    assert sp.test == s[2..];
  }

  /**
   Ratios summing to more than 1 are not rejected either: with ten images,
   0.6 and 0.6 ask for 6 and 6; val is clamped to the 4 images left and test
   is empty, and the three slices still give the list back.
   */
  lemma OverfullRatiosAccepted<T>(s: seq<T>)
    requires |s| == 10
    ensures var sp := SplitList(s, 0.6, 0.6);
      && |sp.train| == 6 && |sp.val| == 4 && |sp.test| == 0
      && sp.train + sp.val + sp.test == s
  {
    SplitIsPartition(s, 0.6, 0.6);
    assert TrainSize(10, 0.6) == 6 && ValSize(10, 0.6) == 6;
  }
}

=== FILE: verify_proofs.dfy ===
/**
 What `verify_dataset` reports about a dataset that `prepare_fracatlas_dataset`
 has just written from a clean start.
 */
module VerifyProofs {
  import opened Wrappers
  import opened Paths
  import opened DatasetManifest
  import opened FileSystem
  import opened Shuffling
  import opened Slicing
  import opened Partitioner
  import opened CopyProofs
  import opened PrepareProofs

  /** The entries of `dir` named by `names`. */
  function ChildrenNamed(dir: Path, names: set<string>): set<Path>
  {
    set n | n in names :: dir + [n]
  }

  /** Naming distinct children of one directory loses nothing. */
  lemma {:induction false} ChildrenNamedCard(dir: Path, names: set<string>)
    ensures |ChildrenNamed(dir, names)| == |names|
    decreases |names|
  {
    if names != {} {
      var n :| n in names;
      var rest := names - {n};
      ChildrenNamedCard(dir, rest);
      assert ChildrenNamed(dir, names) == ChildrenNamed(dir, rest) + {dir + [n]};
      assert dir + [n] !in ChildrenNamed(dir, rest) by {
        forall m | m in rest
          ensures dir + [m] != dir + [n]
        {
          assert (dir + [m])[|dir|] == m;
        }
      }
    }
  }

  /** Images with distinct stems have as many image names, and as many label names, as images. */
  lemma {:induction false} NamesCard(imgs: seq<Path>)
    requires UniqueStems(imgs)
    ensures |ImageNames(imgs)| == |imgs| && |LabelNames(imgs)| == |imgs|
  {
    if |imgs| > 0 {
      HeadNotRetouched(imgs);
      NamesCard(imgs[1..]);
      NamesOfTail(imgs);
    }
  }

  /** A label name carries the label extension. */
  lemma LabelNameHasSuffix(img: Path)
    ensures HasSuffix(LabelName(img), LabelExt)
  {
    var s := Stem(Name(img));
    assert (s + LabelExt)[|s|..] == LabelExt;
  }

  /** After a run, a split's image glob finds exactly the split's images under their names. */
  lemma ImageGlob(fs: Fs, F: Fs, source: Path, output: Path, split: string, imgs: seq<Path>)
    requires SplitMaterialised(fs, F, source, output, split, imgs)
    requires forall x :: x in imgs ==> HasSuffix(Name(x), ImageExt)
    ensures Glob(F, output + ImagesDir(split), ImageExt) == ChildrenNamed(output + ImagesDir(split), ImageNames(imgs))
  {
    var dir := output + ImagesDir(split);
    forall q
      ensures q in Glob(F, dir, ImageExt) <==> q in ChildrenNamed(dir, ImageNames(imgs))
    {
      if IsChild(dir, q) {
        ChildByName(dir, q);
      }
      if q in ChildrenNamed(dir, ImageNames(imgs)) {
        var n :| n in ImageNames(imgs) && q == dir + [n];
        assert IsChild(dir, q) && Name(q) == n;
      }
    }
  }

  /** After a run, a split's label glob finds exactly the split's labels under their names. */
  lemma LabelGlob(fs: Fs, F: Fs, source: Path, output: Path, split: string, imgs: seq<Path>)
    requires SplitMaterialised(fs, F, source, output, split, imgs)
    ensures Glob(F, output + LabelsDir(split), LabelExt) == ChildrenNamed(output + LabelsDir(split), LabelNames(imgs))
  {
    var dir := output + LabelsDir(split);
    forall q
      ensures q in Glob(F, dir, LabelExt) <==> q in ChildrenNamed(dir, LabelNames(imgs))
    {
      if IsChild(dir, q) {
        ChildByName(dir, q);
      }
      if q in ChildrenNamed(dir, LabelNames(imgs)) {
        var n :| n in LabelNames(imgs) && q == dir + [n];
        assert IsChild(dir, q) && Name(q) == n;
      }
      if q in Glob(F, dir, LabelExt) || q in ChildrenNamed(dir, LabelNames(imgs)) {
        var img :| img in imgs && LabelName(img) == Name(q);
        LabelNameHasSuffix(img);
      }
    }
  }

  /** The check of one materialised split with distinct stems counts each image once and its label once. */
  lemma SplitCheckClean(fs: Fs, F: Fs, source: Path, output: Path, split: string, imgs: seq<Path>)
    requires SplitMaterialised(fs, F, source, output, split, imgs)
    requires forall x :: x in imgs ==> HasSuffix(Name(x), ImageExt)
    requires UniqueStems(imgs)
    ensures CheckSplit(F, output, split) == SplitCheck(split, |imgs|, |imgs|, false)
  {
    ImageGlob(fs, F, source, output, split, imgs);
    LabelGlob(fs, F, source, output, split, imgs);
    NamesCard(imgs);
    ChildrenNamedCard(output + ImagesDir(split), ImageNames(imgs));
    ChildrenNamedCard(output + LabelsDir(split), LabelNames(imgs));
  }

  /** Every listed image carries the image extension. */
  lemma ListedAreImages(fs: Fs, source: Path, fractured: seq<Path>, nonFractured: seq<Path>)
    requires IsListing(fs, ClassDir(source, Fractured), ImageExt, fractured)
    requires IsListing(fs, ClassDir(source, NonFractured), ImageExt, nonFractured)
    ensures forall x :: x in fractured + nonFractured ==> HasSuffix(Name(x), ImageExt)
  {
  }

  /** The report on a materialised output whose splits hold images with distinct stems. */
  lemma ChecksAfterRun(fs: Fs, F: Fs, source: Path, output: Path, plan: Splits<Path>)
    requires Materialised(fs, F, source, output, plan)
    requires forall x :: x in plan.train ==> HasSuffix(Name(x), ImageExt)
    requires forall x :: x in plan.val ==> HasSuffix(Name(x), ImageExt)
    requires forall x :: x in plan.test ==> HasSuffix(Name(x), ImageExt)
    requires UniqueStems(plan.train) && UniqueStems(plan.val) && UniqueStems(plan.test)
    ensures CheckSplits(F, output, SplitNames) ==
      [SplitCheck("train", |plan.train|, |plan.train|, false),
       SplitCheck("val", |plan.val|, |plan.val|, false),
       SplitCheck("test", |plan.test|, |plan.test|, false)]
    ensures Exists(F, output + [ManifestName])
  {
    SplitCheckClean(fs, F, source, output, "train", plan.train);
    SplitCheckClean(fs, F, source, output, "val", plan.val);
    SplitCheckClean(fs, F, source, output, "test", plan.test);
  }

  /**
   `verify_dataset` on the output of a run from a clean start, when no two
   collected images share a stem: every split counts as many labels as images,
   namely its share of the plan, none warns, and the manifest is found.
   */
  lemma VerifyAfterPrepare(
    fs: Fs, cwd: Path, sourceArg: PathArg, outputArg: PathArg,
    trainRatio: real, valRatio: real, testRatio: real,
    fractured: seq<Path>, nonFractured: seq<Path>, draws: seq<nat>)
    requires IsListing(MakeLayout(fs, Resolve(cwd, outputArg), SplitNames).fs,
                       ClassDir(Resolve(cwd, sourceArg), Fractured), ImageExt, fractured)
    requires IsListing(MakeLayout(fs, Resolve(cwd, outputArg), SplitNames).fs,
                       ClassDir(Resolve(cwd, sourceArg), NonFractured), ImageExt, nonFractured)
    requires ValidDraws(draws, |fractured| + |nonFractured|)
    requires Exists(fs, Resolve(cwd, sourceArg))
    requires CleanStart(fs, Resolve(cwd, sourceArg), Resolve(cwd, outputArg), fractured + nonFractured)
    requires UniqueStems(fractured + nonFractured)
    ensures var o := Prepare(fs, cwd, sourceArg, outputArg, trainRatio, valRatio, testRatio, fractured, nonFractured, draws);
      var plan := Plan(fractured, nonFractured, draws, trainRatio, valRatio);
      VerifyDataset(o.fs, cwd, outputArg) == Report(
        [SplitCheck("train", |plan.train|, |plan.train|, false),
         SplitCheck("val", |plan.val|, |plan.val|, false),
         SplitCheck("test", |plan.test|, |plan.test|, false)],
        true)
  {
    var source, output := Resolve(cwd, sourceArg), Resolve(cwd, outputArg);
    var o := Prepare(fs, cwd, sourceArg, outputArg, trainRatio, valRatio, testRatio, fractured, nonFractured, draws);
    var plan := Plan(fractured, nonFractured, draws, trainRatio, valRatio);
    PrepareEffect(fs, cwd, sourceArg, outputArg, trainRatio, valRatio, testRatio, fractured, nonFractured, draws);
    ListedAreImages(MakeLayout(fs, output, SplitNames).fs, source, fractured, nonFractured);
    PlanWithin(fractured, nonFractured, draws, trainRatio, valRatio, "train");
    PlanWithin(fractured, nonFractured, draws, trainRatio, valRatio, "val");
    PlanWithin(fractured, nonFractured, draws, trainRatio, valRatio, "test");
    ChecksAfterRun(fs, o.fs, source, output, plan);
  }

  /** The stems of the files in a set of paths. */
  function StemsOf(ps: set<Path>): set<string>
  {
    set p | p in ps :: Stem(Name(p))
  }

  /** The stems of the children of `dir` named by `names`. */
  lemma StemsOfChildren(dir: Path, names: set<string>)
    ensures StemsOf(ChildrenNamed(dir, names)) == set n | n in names :: Stem(n)
  {
    forall n | n in names
      ensures Stem(n) in StemsOf(ChildrenNamed(dir, names))
    {
      assert Name(dir + [n]) == n;
    }
  }

  /**
   After a run, whatever the stems, the labels of a split have exactly the
   stems of its images: each label is named after an image's stem, and that
   name gives the stem back.
   */
  lemma LabelStemsMatchImageStems(fs: Fs, F: Fs, source: Path, output: Path, split: string, imgs: seq<Path>)
    requires SplitMaterialised(fs, F, source, output, split, imgs)
    requires forall x :: x in imgs ==> HasSuffix(Name(x), ImageExt)
    ensures StemsOf(Glob(F, output + LabelsDir(split), LabelExt)) == StemsOf(Glob(F, output + ImagesDir(split), ImageExt))
  {
    ImageGlob(fs, F, source, output, split, imgs);
    LabelGlob(fs, F, source, output, split, imgs);
    StemsOfChildren(output + ImagesDir(split), ImageNames(imgs));
    StemsOfChildren(output + LabelsDir(split), LabelNames(imgs));
    forall x | x in imgs
      ensures Stem(LabelName(x)) == Stem(Name(x))
    {
      LabelStemRoundTrip(Name(x));
    }
    assert (set n | n in LabelNames(imgs) :: Stem(n)) == (set n | n in ImageNames(imgs) :: Stem(n));
  }
}

=== FILE: wrappers.dfy ===
/** Failure-carrying datatypes shared by the model. */
module Wrappers {

  /** An optional value: Python's `None` or a value. */
  datatype Option<+T> = None | Some(value: T)

  /** The outcome of an operation that may raise: a value, or the error it raised. */
  datatype Result<+R, +E> = Success(value: R) | Failure(error: E)
}
